=== FILE: README.md ===
# Object-tracker registry and gtest-log classifier

The project models two parts of the Vulkan validation-layer repository.

The first is the object-lifetime registry of the object-tracker layer. Each
device or instance keeps a `layer_data` holding:

- `object_map[kind]`: live handles mapped to records `{object_type, handle, parent_object, status}`;
- `num_objects[kind]`: a live count per kind;
- `num_total_objects`: the total live count;
- `queue_info_map` and `swapchainImageMap`: two auxiliary maps, on devices only.

The model covers the allocation helpers, the parent checks, the cascades that
drop a pool's or swapchain's children, queue and leak teardown, and the two
batch frees. It also covers the generic lookup, insert and remove primitives
that all of these are built from.

The second is the line-driven state machine that classifies a gtest log
(`OutputStats`), together with its summary and CI verdict.

Modules:

- `Wrappers`: `Option`.
- `Registry` (registry.dfy): handles, records, `LayerData` and the registry invariant `Consistent`. `Consistent` says:
  - every record is filed under its own kind and handle;
  - every per-kind count equals the size of its partition;
  - the total count equals the number of records.

  The module also holds the header primitives `CreateObject`, `ValidateObject`, `DestroyObject` and `DestroyObjectSilently`.
- `ParentChecks` (parent_checks.dfy): `ValidateCommandBuffer`, `ValidateDescriptorSet` and `ValidateDeviceObject`.
- `Allocation` (allocation.dfy): `AllocateCommandBuffer`, `AllocateDescriptorSet`, `CreateQueue`, `CreateSwapchainImageObject`, `AddQueueInfo`, and `GetDeviceQueue`.
- `Cascade` (cascade.dfy): the child cascade shared by `ResetDescriptorPool`, `DestroyDescriptorPool` and `DestroyCommandPool`, plus `DestroySwapchainKHR`.
- `Teardown` (teardown.dfy): `DestroyQueueDataStructures`, `DeviceReportUndestroyedObjects` and `DeviceDestroyUndestroyedObjects`.
- `BatchFree` (batch_free.dfy): `FreeCommandBuffers` and `FreeDescriptorSets`. In both, a validation loop over the non-null handles is followed by an unconditional destroy loop over every handle.
- `TestLog` (test_log.dfy): the transition methods of `OutputStats`.
  - A log line is abstracted to its text plus the outcome of each regular expression the script tries on it.
  - The run is `Live(stats)`, `Died(output)` for the `exit(1)` of a dead test, or `Crashed` for the script aborting. It aborts on a failed assertion, or on a RUN banner whose test name cannot be extracted.
- `TestSummary` (test_summary.dfy): the classification and verdict of `print_summary`, and the exit status of `main`.

Each `global_lock` critical section is one pure function or method from one registry value to the next. A check's outcome is the diagnostic it emits: `None` when silent, one `Report` otherwise. An entry point skips its forwarded call exactly when one of the checks it folds into its `skip` flag reported; a report from any other check is emitted and nothing more. These reports do not affect skipping:

- `DestroySwapchainKHR` forwards unconditionally (layers/object_tracker_utils.cpp:1117-1119).
- `GetDeviceQueue` forwards whatever its device check reports (layers/object_tracker_utils.cpp:444-447).
- `FreeCommandBuffers` leaves its device and pool reports out of `skip` (layers/object_tracker_utils.cpp:1079-1080).
- The not-found reports of the destroy loops in `FreeCommandBuffers` and `FreeDescriptorSets` come after the skip decision and never affect it (layers/object_tracker_utils.cpp:1087-1090).

The model follows the code where the code is asymmetric:

- `FreeCommandBuffers` emits the device and pool diagnostics but does not let them affect its skip decision.
- `FreeDescriptorSets` does let them affect it.
- Both destroy every listed handle whether or not validation failed.

## Model

| member | source | states |
|---|---|---|
| Registry.CreateObject | layers/object_tracker_utils.cpp:131-142 | a fresh record is filed under its kind with the given parent and status; that kind's count and the total rise by one; nothing else changes; the invariant is kept |
| Registry.ValidateObject | layers/object_tracker_utils.cpp:1155-1156 | silent exactly when the handle is live under its kind, or is null and null is allowed; otherwise one report with the invalid-handle code |
| Registry.CreateDestroyValidate | layers/object_tracker_utils.cpp:1155-1156 | a created handle validates silently; destroying it is silent, restores its kind's partition, count and the total, and a later validation reports it with the invalid-handle code |
| Registry.DestroyTwice | layers/object_tracker_utils.cpp:1087-1090 | destroying a non-null handle a second time gives exactly one not-found report and leaves the registry as the first destroy left it |
| Registry.DestroyObject | layers/object_tracker_utils.cpp:1173-1174 | a null handle changes nothing; a live handle is removed and both counts fall by one, silently; an unknown handle changes nothing and gives one not-found report; other kinds and the auxiliary maps are untouched; the invariant is kept |
| Registry.DestroyObjectSilently | layers/object_tracker_utils.cpp:70-82 | a live handle is removed without a report, both counts falling by one; the invariant is kept |
| Registry.ConsistentCanDecrement | layers/object_tracker_utils.cpp:73-76 | in a consistent registry both counts of a live record are positive, so the asserted decrements hold |
| Registry.EraseKeepsConsistent | layers/object_tracker_utils.cpp:72-82 | erasing a live record with both counts lowered keeps counts equal to map sizes |
| Registry.InsertKeepsConsistent | layers/object_tracker_utils.cpp:140-142 | inserting a fresh record with both counts raised keeps counts equal to map sizes |
| Registry.ConsistentReadsObjectsOnly | layers/object_tracker_utils.cpp:298-303 | the invariant does not read the auxiliary maps, so changing only them cannot break it |
| ParentChecks.ValidateParent | layers/object_tracker_utils.cpp:145-166 | the shared shape of both parent checks: not-found report when absent, wrong-parent report when owned by another parent, silent exactly when live and owned by the given parent |
| ParentChecks.ValidateCommandBuffer | layers/object_tracker_utils.cpp:145-166 | the three cases with codes 0x28400060 (absent) and 0x28411407 (wrong pool) |
| ParentChecks.ValidateDescriptorSet | layers/object_tracker_utils.cpp:185-206 | the three cases with codes 0x2860026c (absent) and 0x28613007 (wrong pool) |
| ParentChecks.ValidateDeviceObject | layers/object_tracker_utils.cpp:107-121 | silent exactly when some registry in the process has a Device record whose handle field is the device; otherwise one invalid-handle report |
| ParentChecks.ValidateDeviceObjectByKey | layers/object_tracker_utils.cpp:110-116 | over well-filed registries, searching record handle fields is the same as a key lookup in some registry's Device map |
| Allocation.AllocateCommandBuffer | layers/object_tracker_utils.cpp:123-143 | exactly one record is added or replaced: a command-buffer record for that handle, with the pool as parent and the secondary status exactly when the level is secondary; the command-buffer count and the total rise by one; other kinds are untouched |
| Allocation.AllocateCommandBufferKeepsConsistent | layers/object_tracker_utils.cpp:131-142 | allocating a handle not yet tracked keeps the invariant |
| Allocation.AllocateLiveCommandBufferBreaksCount | layers/object_tracker_utils.cpp:140-142 | allocating a handle already tracked overwrites its record but still raises the count, leaving the count one above the map size |
| Allocation.AllocatedCommandBufferBelongsToPool | layers/object_tracker_utils.cpp:153-159 | a buffer just allocated from a pool passes the parent check for that pool and fails it with the wrong-pool code for any other |
| Allocation.AllocateDescriptorSet | layers/object_tracker_utils.cpp:168-183 | exactly one record with the pool as parent and no status; the descriptor-set count and the total rise by one; other kinds are untouched |
| Allocation.AllocateDescriptorSetKeepsConsistent | layers/object_tracker_utils.cpp:175-182 | allocating a set not yet tracked keeps the invariant |
| Allocation.AllocatedDescriptorSetBelongsToPool | layers/object_tracker_utils.cpp:193-199 | a set just allocated from a pool passes the parent check for that pool and fails it with the wrong-pool code for any other |
| Allocation.CreateQueue | layers/object_tracker_utils.cpp:270-290 | the queue ends up tracked with its own kind, handle and no status; re-registering a tracked queue keeps its parent and leaves both counts unchanged; a new queue raises both counts by one |
| Allocation.CreateQueueKeepsConsistent | layers/object_tracker_utils.cpp:277-289 | registering a queue keeps the invariant, whether or not it was already tracked |
| Allocation.CreateSwapchainImageObject | layers/object_tracker_utils.cpp:292-304 | the image is added to the swapchain-image map only, owned by the swapchain; the object map and every count are unchanged |
| Allocation.AddQueueInfo | layers/object_tracker_utils.cpp:42-58 | a queue without metadata gets an entry with its family index; a queue that has one leaves the registry unchanged |
| Allocation.AddQueueInfoIdempotent | layers/object_tracker_utils.cpp:44-51 | adding metadata for the same queue twice changes nothing the second time; the entry is the existing one or the new family index |
| Allocation.GetDeviceQueue | layers/object_tracker_utils.cpp:442-452 | the device check's report is emitted and never stops the call; afterwards the queue is tracked and has metadata; a new queue raises the queue count and the total by one, while a tracked queue keeps its parent and both counts; existing metadata is kept, otherwise the family index is recorded; other kinds, other queues and the swapchain images are untouched |
| Allocation.GetDeviceQueueAgainKeepsCounts | layers/object_tracker_utils.cpp:278-286 | fetching the same queue a second time leaves every count, the total and the queue metadata where the first fetch left them |
| Cascade.DestroyChildren | layers/object_tracker_utils.cpp:559-567 | the children of the parent (live, non-null, with that parent) are removed and nothing else is; the kind's count and the total fall by their number; other kinds and the auxiliary maps are untouched; no report; the invariant is kept |
| Cascade.CascadeOne | layers/object_tracker_utils.cpp:1196-1202 | one visit of the cascade loop: when the pool re-validates its children, the visited child's re-validation against the pool is silent; the visit's reports, re-check included, are empty; destroying the child keeps the loop invariant |
| Cascade.NoChildRemains | layers/object_tracker_utils.cpp:1164-1172 | after the cascade no non-null record of the kind has the removed parent, and every record with another parent is still present and unchanged |
| Cascade.ResetDescriptorPool | layers/object_tracker_utils.cpp:546-571 | with a bad device or unknown pool (null not allowed) the registry is unchanged, the call fails validation, and the reports are exactly the device report followed by the pool's invalid-handle report (code 0x32a04601); otherwise the pool's descriptor sets are removed and the driver's result is returned |
| Cascade.DestroyPool | layers/object_tracker_utils.cpp:1149-1208 | forwarded exactly when the device check is silent and the pool is null or live; if not forwarded the registry is unchanged and the reports are exactly the device report followed by the pool's invalid-handle report; if forwarded, the children and then the pool are removed, with counts adjusted and other kinds untouched; the result carries the cascade's reports and the pool destroy's report, and these are proved empty |
| Cascade.DestroyDescriptorPool | layers/object_tracker_utils.cpp:1149-1177 | the shared pool destruction for descriptor pools and their sets; a rejected call reports exactly the device report and the pool report with code 0x24404601 |
| Cascade.DestroyCommandPool | layers/object_tracker_utils.cpp:1179-1208 | the shared pool destruction for command pools and their buffers; a rejected call reports exactly the device report and the pool report with code 0x24002801; with each visited buffer re-validated against the pool; the re-check reports flow through the cascade into the entry point's result, which is proved empty |
| Cascade.DestroyedPoolLeavesNoOrphans | layers/object_tracker_utils.cpp:1193-1205 | after a non-null pool is destroyed, the pool is gone, no live child names it as parent, and every child of another pool is unchanged |
| Cascade.ImagesNotOf | layers/object_tracker_utils.cpp:1104-1114 | keeps exactly the swapchain images whose parent is not the swapchain, with their records unchanged |
| Cascade.DestroySwapchainKHR | layers/object_tracker_utils.cpp:1099-1120 | exactly the images of the swapchain are dropped and all others are kept; the swapchain record is then destroyed and the swapchain count falls by one; a null or unknown swapchain leaves the swapchain partition, its count and the total unchanged (exactly one not-found report if unknown, none if null); the other kinds and the queue map are untouched; the invariant is kept |
| Cascade.SwapchainImageGoesWithSwapchain | layers/object_tracker_utils.cpp:298-303 | an image recorded for a swapchain is gone after that swapchain is destroyed, an image of another swapchain stays, and recording an image keeps the invariant |
| Teardown.DestroyQueueDataStructures | layers/object_tracker_utils.cpp:61-84 | both the queue metadata and the queue partition end up empty; the queue count and the total fall by the number of queues removed; other kinds are untouched; the invariant is kept |
| Teardown.ConsistentQueuesRemovable | layers/object_tracker_utils.cpp:73-76 | in a consistent registry every decrement asserted by the queue loop is legal |
| Teardown.DeviceReportUndestroyedObjects | layers/object_tracker_utils.cpp:306-314 | one leak report per live record of the kind, carrying the record's handle and the given code, and no other report; the registry is a read-only input |
| Teardown.LeakReportsAreLiveHandles | layers/object_tracker_utils.cpp:308-312 | the owed leak reports are exactly one per live handle of the kind |
| Teardown.DeviceDestroyUndestroyedObjects | layers/object_tracker_utils.cpp:316-324 | the kind's partition ends up empty with count zero; the total falls by its former size; other kinds are untouched; the invariant is kept |
| BatchFree.ParentFailuresEmpty | layers/object_tracker_utils.cpp:1081-1085 | the validation loop reports nothing exactly when every non-null handle is live and owned by the pool |
| BatchFree.ValidateBatch | layers/object_tracker_utils.cpp:1081-1085 | the skip flag is the OR of the per-handle checks over the non-null handles: set exactly when some non-null handle is absent or owned by another pool |
| BatchFree.DestroyBatch | layers/object_tracker_utils.cpp:1087-1090 | every non-null listed handle is gone afterwards and nothing else of the kind is removed; the count and total fall by the number of distinct listed live handles; one not-found report for each turn whose handle is not live by then |
| BatchFree.MissingReportsEmpty | layers/object_tracker_utils.cpp:1087-1090 | the destroy loop reports nothing exactly when each non-null handle is live in the registry and listed only once |
| BatchFree.FreeCommandBuffers | layers/object_tracker_utils.cpp:1075-1097 | forwarded exactly when every non-null buffer is owned by the pool, whatever the device and pool checks say; the listed buffers are destroyed regardless; the reports are the device, pool, parent and not-found reports in order |
| BatchFree.FreeDescriptorSets | layers/object_tracker_utils.cpp:1122-1147 | returns the driver's result exactly when the device check is silent, the pool is live and every non-null set is owned by the pool, and otherwise fails validation; the listed sets are destroyed regardless |
| BatchFree.CleanFreeReportsNothing | layers/object_tracker_utils.cpp:1080-1090 | freeing distinct buffers all owned by a live pool emits no pool, parent or not-found report |
| BatchFree.FreeTwiceChangesNothing | layers/object_tracker_utils.cpp:1087-1090 | freeing the same batch a second time changes neither the partition nor the counts |
| TestLog.Record | scripts/parse_test_results.py:106 | records a verdict for one (test, profile) and leaves every other entry as it was |
| TestLog.NewProfileMatch | scripts/parse_test_results.py:86-88 | a profile line switches the current profile and any other line changes nothing |
| TestLog.TestSuiteEndMatch | scripts/parse_test_results.py:90-95 | stops as a dead test, with the captured output, exactly when a separator arrives while a test is running |
| TestLog.StartTestMatch | scripts/parse_test_results.py:97-102 | a RUN banner aborts the script exactly when a test is already running or no name follows it; otherwise it sets the current test and clears the output |
| TestLog.SkipTestMatch | scripts/parse_test_results.py:104-106 | a skip line records a skip for the current (test, profile) and touches nothing else |
| TestLog.PassTestMatch | scripts/parse_test_results.py:108-113 | an OK line never overwrites a recorded skip, records a pass otherwise, and always clears the current test |
| TestLog.FailTestMatch | scripts/parse_test_results.py:115-118 | a FAILED line records a failure and clears the current test only while a test is running; otherwise it changes nothing |
| TestLog.UnexpectedErrorMatch | scripts/parse_test_results.py:120-122 | an "Unexpected:" line flags exactly the current (test, profile) |
| TestLog.CaptureOutput | scripts/parse_test_results.py:30-31 | a line joins the captured output only while a test is running |
| TestLog.Match | scripts/parse_test_results.py:26-35 | a run that has stopped stays stopped whatever line follows |
| TestLog.StoppedRunStays | scripts/parse_test_results.py:124-128 | after the exit of a dead test or an abort, no further line changes the outcome |
| TestLog.FeedAppend | scripts/parse_test_results.py:132-133 | reading a log in two chunks is the same as reading it whole |
| TestLog.SeparatorWhileRunningDies | scripts/parse_test_results.py:90-95 | a separator while a test runs ends the script with the output captured so far |
| TestLog.RunWhileRunningCrashes | scripts/parse_test_results.py:97-100 | a RUN banner while a test runs aborts the script |
| TestLog.OutputOnlyWhileRunning | scripts/parse_test_results.py:26-35 | after a line, the captured output grew by that line exactly when a test was running, and restarts at the banner itself after a RUN line |
| TestLog.BannersEndTest | scripts/parse_test_results.py:108-118 | an OK line, or a FAILED line while a test runs, leaves no test running; a lone FAILED line with no test running records nothing |
| TestLog.SkipThenOkStaysSkipped | scripts/parse_test_results.py:104-113 | a skip followed by OK leaves the (test, profile) skipped and no test running |
| TestLog.FeedKeepsNoEmptyTest | scripts/parse_test_results.py:104-122 | every test that has an entry in the results has at least one profile verdict, over any log |
| TestSummary.CountProfiles | scripts/parse_test_results.py:53-61 | some profile failed exactly when the failed count is non-zero; every profile skipped exactly when the skipped count equals the number of profiles; flagged exactly when the unexpected count is non-zero; pass, fail and skip counts add up to the number of profiles |
| TestSummary.PrintSummary | scripts/parse_test_results.py:37-84 | while a test runs, stops as a dead test with its output; otherwise each count is the number of tests in its class (failed anywhere, else skipped everywhere, else passed) or flagged with an unexpected error, the three classes add up to the number of tests, and the verdict fails exactly when some test did not pass or was flagged |
| TestSummary.ClassesPartition | scripts/parse_test_results.py:62-69 | every recorded test falls in exactly one class, so passed + failed + skipped equals the number of tests |
| TestSummary.FlaggedStep | scripts/parse_test_results.py:70-72 | visiting one more test adds exactly one to the unexpected-error count when any of its profiles is flagged, however many are, and zero otherwise |
| TestSummary.VerdictMeaning | scripts/parse_test_results.py:74-84 | the verdict, set when the skipped, failed or unexpected-error count is non-zero, means some test failed somewhere, was skipped everywhere, or was flagged |
| TestSummary.SkippedEverywhereFails | scripts/parse_test_results.py:65-77 | a test skipped on every recorded profile is classed as skipped, so the skipped count is non-zero and the verdict fails |
| TestSummary.ExitStatus | scripts/parse_test_results.py:130-137 | exit status 0 exactly when the log ends with no test running and every test passed without an unexpected error; 1 otherwise |

## Left out

- The `global_lock` mutex and the unlock, forward, relock protocol: each locked section is one atomic step. In `DestroyDescriptorPool` and `DestroyCommandPool` the check and the cascade are consecutive steps with nothing in between.
- Dispatch-table calls to the driver: the driver's result is a parameter (`driverResult`), and forwarding is an output (`forwarded`).
- `log_msg` formatting, severity, the callback plumbing, and the sink's choice to suppress a call. Skipping is modelled as the code computes it: only the checks folded into `skip` decide it. Whether the sink would also suppress a call on its own is not modelled. Information-level messages and `object_track_index` are not modelled.
- `object_tracker.h` is not part of this model. Its `ValidateObject`, `CreateObject`, `DestroyObject` and `DestroyObjectSilently` are modelled from their call sites:
  - `DestroyObject` ignores a null handle, removes a live one, and reports an unknown one.
  - Its wrong-device and allocator-mismatch checks are not modelled.
- The device check that `ResetDescriptorPool`, `DestroyDescriptorPool`, `DestroyCommandPool`, `FreeCommandBuffers`, `FreeDescriptorSets` and `GetDeviceQueue` perform first is a parameter (`deviceCheck`); `DestroySwapchainKHR` performs none. The check depends on every registry in the process, which `ValidateDeviceObject` models on its own.
- A driver that hands back a handle the registry still tracks: the source does not check for it, and `AllocateLiveCommandBufferBreaksCount` shows that the counts then drift from the maps. Every entry point requires the invariant `Consistent`, so the model assumes this never happens and promises nothing from such a state on.
- ParentChecks.ValidateDeviceObject: the report is not tied to the last instance seen; that only selects the sink. The unused `wrong_device_code` parameter is dropped. When no registry holds any Device record, the source reads a null instance; that edge is not modelled.
- `ValidateQueueFlags`: it depends on queue-family properties fetched from the driver.
- The per-entry-point wrappers that only validate and forward, and the loader, instance and device plumbing.
- Counter width: counts are unbounded naturals, and the 64-bit counters of the source never wrap here. The decrement assertions are modelled as preconditions: `CanDecrement`, and `QueuesRemovable` for the queue loop.
- Allocation.CreateQueue: the parent field of a newly created queue record is never assigned in the source. Its value is taken as the parameter `unsetParent`.
- Teardown.DestroyQueueDataStructures: requires that the queue count and the total are at least the number of queue records, rather than checking the assertion before each decrement. A consistent registry meets this (`ConsistentQueuesRemovable`).
- Iteration order over the source's hash maps is not modelled. Cascades and teardown loops pick any remaining element, and their contracts do not depend on the order. `DeviceReportUndestroyedObjects` states its reports as a set, not as a sequence in map order.
- Python regular expressions, `print`, reading standard input, and `exit`. A line is its text plus one boolean or captured value per regular expression. `exit(1)` of a dead test is the `Died` state. A failed `assert`, or a RUN line whose name cannot be extracted, is the `Crashed` state, which exits with status 1. Running the script with assertions disabled (`python -O`) is not modelled.
- The summary's printed lines are not modelled, only the counts and the verdict. The count of passed profiles in the summary loop is kept but is not used by the source.

=== FILE: allocation.dfy ===
/**
 Registration of objects the driver hands back: command buffers and
 descriptor sets allocated from a pool, queues fetched from a device, and
 swapchain images, plus the device's queue metadata.
 */
module Allocation {

  import opened Wrappers
  import opened Registry
  import opened ParentChecks

  datatype CommandBufferLevel = Primary | Secondary

  /** Files a command buffer under `pool`; secondary-level buffers carry the secondary status. */
  function AllocateCommandBuffer(d: LayerData, pool: Handle, cb: Handle, level: CommandBufferLevel): (r: LayerData)
    ensures cb in Partition(r, CommandBuffer)
    ensures Partition(r, CommandBuffer)[cb]
              == ObjRecord(CommandBuffer, cb, pool, if level == Secondary then CommandBufferSecondary else StatusNone)
    ensures forall h | h != cb :: Find(r, CommandBuffer, h) == Find(d, CommandBuffer, h)
    ensures Count(r, CommandBuffer) == Count(d, CommandBuffer) + 1
    ensures r.numTotal == d.numTotal + 1
    ensures SameExcept(d, r, CommandBuffer)
  {
    var status := if level == Secondary then CommandBufferSecondary else StatusNone;
    Insert(d, ObjRecord(CommandBuffer, cb, pool, status))
  }

  /** Files a descriptor set under `pool`. */
  function AllocateDescriptorSet(d: LayerData, pool: Handle, ds: Handle): (r: LayerData)
    ensures ds in Partition(r, DescriptorSet)
    ensures Partition(r, DescriptorSet)[ds] == ObjRecord(DescriptorSet, ds, pool, StatusNone)
    ensures forall h | h != ds :: Find(r, DescriptorSet, h) == Find(d, DescriptorSet, h)
    ensures Count(r, DescriptorSet) == Count(d, DescriptorSet) + 1
    ensures r.numTotal == d.numTotal + 1
    ensures SameExcept(d, r, DescriptorSet)
  {
    Insert(d, ObjRecord(DescriptorSet, ds, pool, StatusNone))
  }

  /**
   Registers a queue. A queue already tracked keeps its record and the counts
   stay put (its kind, handle and status are rewritten); a new queue is filed
   with both counts raised. The parent field of a new queue record is never
   assigned by the source, so it is taken as the parameter `unsetParent`.
   */
  function CreateQueue(d: LayerData, q: Handle, unsetParent: Handle): (r: LayerData)
    ensures q in Partition(r, Queue)
    ensures Partition(r, Queue)[q].status == StatusNone
    ensures Partition(r, Queue)[q].objectType == Queue && Partition(r, Queue)[q].handle == q
    ensures q in Partition(d, Queue) ==>
              && Partition(r, Queue)[q].parent == Partition(d, Queue)[q].parent
              && Count(r, Queue) == Count(d, Queue)
              && r.numTotal == d.numTotal
    ensures q !in Partition(d, Queue) ==>
              && Count(r, Queue) == Count(d, Queue) + 1
              && r.numTotal == d.numTotal + 1
    ensures forall h | h != q :: Find(r, Queue, h) == Find(d, Queue, h)
    ensures SameExcept(d, r, Queue)
  {
    if q !in Partition(d, Queue) then
      Insert(d, ObjRecord(Queue, q, unsetParent, StatusNone))
    else
      var rec := Partition(d, Queue)[q].(objectType := Queue, status := StatusNone, handle := q);
      d.(objectMap := d.objectMap[Queue := Partition(d, Queue)[q := rec]])
  }

  /**
   Records a swapchain image in the swapchain-image map only, owned by
   `swapchain`; the object map and every count are left alone.
   */
  function CreateSwapchainImageObject(d: LayerData, image: Handle, swapchain: Handle): (r: LayerData)
    ensures r.swapchainImages.Keys == d.swapchainImages.Keys + {image}
    ensures r.swapchainImages[image] == ObjRecord(Image, image, swapchain, StatusNone)
    ensures forall h | h in d.swapchainImages && h != image :: r.swapchainImages[h] == d.swapchainImages[h]
    ensures r.objectMap == d.objectMap && r.numObjects == d.numObjects && r.numTotal == d.numTotal
    ensures r.queueInfo == d.queueInfo
  {
    d.(swapchainImages := d.swapchainImages[image := ObjRecord(Image, image, swapchain, StatusNone)])
  }

  /** Adds queue metadata for a queue not yet known; a known queue keeps its entry. */
  function AddQueueInfo(d: LayerData, queueNodeIndex: nat, q: Handle): (r: LayerData)
    ensures q in r.queueInfo
    ensures q in d.queueInfo ==> r == d
    ensures q !in d.queueInfo ==> r.queueInfo == d.queueInfo[q := QueueInfo(q, queueNodeIndex)]
    ensures r.objectMap == d.objectMap && r.numObjects == d.numObjects && r.numTotal == d.numTotal
    ensures r.swapchainImages == d.swapchainImages
  {
    if q in d.queueInfo then d
    else d.(queueInfo := d.queueInfo[q := QueueInfo(q, queueNodeIndex)])
  }

  /**
   GetDeviceQueue: the device check's report is emitted but does not stop the
   call; after the driver returns `q`, a second locked section registers the
   queue and then its metadata.
   */
  function GetDeviceQueue(d: LayerData, deviceCheck: Option<Report>, queueFamilyIndex: nat, q: Handle,
                          unsetParent: Handle): (r: Step)
    ensures r.reports == Reported(deviceCheck)
    ensures q in Partition(r.reg, Queue) && q in r.reg.queueInfo
    ensures q !in Partition(d, Queue) ==>
              && Count(r.reg, Queue) == Count(d, Queue) + 1
              && r.reg.numTotal == d.numTotal + 1
    ensures q in Partition(d, Queue) ==>
              && Partition(r.reg, Queue)[q].parent == Partition(d, Queue)[q].parent
              && Count(r.reg, Queue) == Count(d, Queue)
              && r.reg.numTotal == d.numTotal
    ensures forall h | h != q :: Find(r.reg, Queue, h) == Find(d, Queue, h)
    ensures q in d.queueInfo ==> r.reg.queueInfo == d.queueInfo
    ensures q !in d.queueInfo ==> r.reg.queueInfo == d.queueInfo[q := QueueInfo(q, queueFamilyIndex)]
    ensures SameExcept(d.(queueInfo := r.reg.queueInfo), r.reg, Queue)
  {
    Step(AddQueueInfo(CreateQueue(d, q, unsetParent), queueFamilyIndex, q), Reported(deviceCheck))
  }

  /** A freshly allocated command buffer keeps the registry invariant. */
  lemma AllocateCommandBufferKeepsConsistent(d: LayerData, pool: Handle, cb: Handle, level: CommandBufferLevel)
    requires Consistent(d) && cb !in Partition(d, CommandBuffer)
    ensures Consistent(AllocateCommandBuffer(d, pool, cb, level))
  {
    var status := if level == Secondary then CommandBufferSecondary else StatusNone;
    InsertKeepsConsistent(d, ObjRecord(CommandBuffer, cb, pool, status));
  }

  /**
   The allocation path does not check for a handle already tracked: allocating
   such a handle again overwrites its record yet still raises the count, so
   the count no longer equals the partition size.
   */
  lemma AllocateLiveCommandBufferBreaksCount(d: LayerData, pool: Handle, cb: Handle, level: CommandBufferLevel)
    requires Consistent(d) && cb in Partition(d, CommandBuffer)
    ensures var r := AllocateCommandBuffer(d, pool, cb, level);
            Count(r, CommandBuffer) == |Partition(r, CommandBuffer)| + 1
  {
    var r := AllocateCommandBuffer(d, pool, cb, level);
    assert Partition(r, CommandBuffer).Keys == Partition(d, CommandBuffer).Keys;
  }

  /** A freshly allocated descriptor set keeps the registry invariant. */
  lemma AllocateDescriptorSetKeepsConsistent(d: LayerData, pool: Handle, ds: Handle)
    requires Consistent(d) && ds !in Partition(d, DescriptorSet)
    ensures Consistent(AllocateDescriptorSet(d, pool, ds))
  {
    InsertKeepsConsistent(d, ObjRecord(DescriptorSet, ds, pool, StatusNone));
  }

  /** Registering a queue keeps the registry invariant, whether or not it was already tracked. */
  lemma CreateQueueKeepsConsistent(d: LayerData, q: Handle, unsetParent: Handle)
    requires Consistent(d)
    ensures Consistent(CreateQueue(d, q, unsetParent))
  {
    var r := CreateQueue(d, q, unsetParent);
    if q !in Partition(d, Queue) {
      InsertKeepsConsistent(d, ObjRecord(Queue, q, unsetParent, StatusNone));
    } else {
      assert Partition(r, Queue).Keys == Partition(d, Queue).Keys;
      SumSizesUpdate(d.objectMap, Queue, Partition(r, Queue));
    }
  }

  /** Fetching the same queue again leaves both counts where the first fetch put them. */
  lemma GetDeviceQueueAgainKeepsCounts(d: LayerData, check: Option<Report>, check': Option<Report>,
                                       family: nat, family': nat, q: Handle, p: Handle, p': Handle)
    ensures var once := GetDeviceQueue(d, check, family, q, p).reg;
            var twice := GetDeviceQueue(once, check', family', q, p').reg;
            && (forall k :: Count(twice, k) == Count(once, k))
            && twice.numTotal == once.numTotal
            && twice.queueInfo == once.queueInfo
  {
    var once := GetDeviceQueue(d, check, family, q, p).reg;
    var twice := GetDeviceQueue(once, check', family', q, p').reg;
    var mid := CreateQueue(once, q, p');
    assert q in Partition(once, Queue);
    assert Count(mid, Queue) == Count(once, Queue);
  }

  /** A command buffer just allocated from `pool` passes the parent check for `pool` and fails it for any other pool. */
  lemma AllocatedCommandBufferBelongsToPool(d: LayerData, pool: Handle, other: Handle, cb: Handle, level: CommandBufferLevel)
    requires other != pool
    ensures ValidateCommandBuffer(AllocateCommandBuffer(d, pool, cb, level), pool, cb) == None
    ensures ValidateCommandBuffer(AllocateCommandBuffer(d, pool, cb, level), other, cb)
            == Some(Report(CommandBuffer, cb, Vuid(0x28411407)))
  {
  }

  /** A descriptor set just allocated from `pool` passes the parent check for `pool` and fails it for any other pool. */
  lemma AllocatedDescriptorSetBelongsToPool(d: LayerData, pool: Handle, other: Handle, ds: Handle)
    requires other != pool
    ensures ValidateDescriptorSet(AllocateDescriptorSet(d, pool, ds), pool, ds) == None
    ensures ValidateDescriptorSet(AllocateDescriptorSet(d, pool, ds), other, ds)
            == Some(Report(DescriptorSet, ds, Vuid(0x28613007)))
  {
  }

  /** Adding queue metadata twice keeps the first entry: the second call changes nothing. */
  lemma AddQueueInfoIdempotent(d: LayerData, i: nat, j: nat, q: Handle)
    ensures AddQueueInfo(AddQueueInfo(d, i, q), j, q) == AddQueueInfo(d, i, q)
    ensures AddQueueInfo(d, i, q).queueInfo[q] == (if q in d.queueInfo then d.queueInfo[q] else QueueInfo(q, i))
  {
  }
}

=== FILE: batch_free.dfy ===
/**
 Freeing a batch of command buffers or descriptor sets: every non-null handle
 is first checked against the pool the caller names, then every handle is
 destroyed, whatever the checks found.
 */
module BatchFree {

  import opened Wrappers
  import opened Registry
  import opened ParentChecks

  /** The handles of a batch, minus the null handle, which both loops step over. */
  function NonNull(hs: seq<Handle>): set<Handle> {
    set h | h in hs && h != NullHandle
  }

  /** `h` is live under `kind` and was allocated from `parent`. */
  predicate Owned(d: LayerData, kind: ObjectKind, parent: Handle, h: Handle) {
    h in Partition(d, kind) && Partition(d, kind)[h].parent == parent
  }

  /** Reference for the check loop: the parent-check reports of the non-null handles, in order. */
  function ParentFailures(d: LayerData, kind: ObjectKind, parent: Handle, hs: seq<Handle>, codes: ParentCodes)
    : seq<Report>
    decreases |hs|
  {
    if hs == [] then []
    else
      var last := hs[|hs| - 1];
      ParentFailures(d, kind, parent, hs[..|hs| - 1], codes)
        + (if last != NullHandle then Reported(ValidateParent(d, kind, parent, last, codes)) else [])
  }

  /** The check loop reports nothing exactly when every non-null handle of the batch is owned by `parent`. */
  lemma {:induction false} ParentFailuresEmpty(d: LayerData, kind: ObjectKind, parent: Handle, hs: seq<Handle>,
                                               codes: ParentCodes)
    ensures ParentFailures(d, kind, parent, hs, codes) == []
            <==> forall i | 0 <= i < |hs| && hs[i] != NullHandle :: Owned(d, kind, parent, hs[i])
    decreases |hs|
  {
    if hs != [] {
      var init := hs[..|hs| - 1];
      ParentFailuresEmpty(d, kind, parent, init, codes);
      assert forall i | 0 <= i < |init| :: init[i] == hs[i];
    }
  }

  /**
   The check loop: runs the parent check on every non-null handle against the
   unchanged registry and ORs the outcomes into `skip`.
   */
  method ValidateBatch(d: LayerData, kind: ObjectKind, parent: Handle, hs: seq<Handle>, codes: ParentCodes)
    returns (checks: seq<Report>, skip: bool)
    ensures checks == ParentFailures(d, kind, parent, hs, codes)
    ensures skip <==> checks != []
    ensures skip <==> exists i | 0 <= i < |hs| :: hs[i] != NullHandle && !Owned(d, kind, parent, hs[i])
  {
    checks := [];
    skip := false;
    for i := 0 to |hs|
      invariant checks == ParentFailures(d, kind, parent, hs[..i], codes)
      invariant skip <==> checks != []
    {
      assert hs[..i + 1][..i] == hs[..i];
      if hs[i] != NullHandle {
        var check := ValidateParent(d, kind, parent, hs[i], codes);
        checks := checks + Reported(check);
        skip := skip || check.Some?;
      }
    }
    assert hs[..|hs|] == hs;
    ParentFailuresEmpty(d, kind, parent, hs, codes);
  }

  /**
   What the destroy loop guarantees: the non-null handles of the batch are no
   longer live, every other record of `kind` is untouched, the counts fell by
   the number of batch handles that were live, and other kinds did not move.
   */
  ghost predicate BatchFreed(d: LayerData, e: LayerData, kind: ObjectKind, hs: seq<Handle>) {
    && Consistent(e)
    && Partition(e, kind) == Partition(d, kind) - NonNull(hs)
    && Count(e, kind) == Count(d, kind) - |NonNull(hs) * Partition(d, kind).Keys|
    && e.numTotal == d.numTotal - |NonNull(hs) * Partition(d, kind).Keys|
    && SameExcept(d, e, kind)
  }

  /** The turn of `hs[j]` in the destroy loop finds it live: it is null, or live in `d` and not listed earlier. */
  predicate FoundLive(d: LayerData, kind: ObjectKind, hs: seq<Handle>, j: nat)
    requires j < |hs|
  {
    hs[j] == NullHandle || (hs[j] in Partition(d, kind) && hs[j] !in hs[..j])
  }

  /** Reference for the destroy loop's reports: one not-found report per turn that does not find its handle live. */
  function MissingReports(d: LayerData, kind: ObjectKind, hs: seq<Handle>): seq<Report>
    decreases |hs|
  {
    if hs == [] then []
    else
      MissingReports(d, kind, hs[..|hs| - 1])
        + (if FoundLive(d, kind, hs, |hs| - 1) then [] else [Report(kind, hs[|hs| - 1], UnknownObject)])
  }

  /** The destroy loop reports nothing exactly when every turn finds its handle live. */
  lemma {:induction false} MissingReportsEmpty(d: LayerData, kind: ObjectKind, hs: seq<Handle>)
    ensures MissingReports(d, kind, hs) == [] <==> forall j | 0 <= j < |hs| :: FoundLive(d, kind, hs, j)
    decreases |hs|
  {
    if hs != [] {
      var init := hs[..|hs| - 1];
      MissingReportsEmpty(d, kind, init);
      forall j | 0 <= j < |init| ensures FoundLive(d, kind, init, j) == FoundLive(d, kind, hs, j) {
        assert init[..j] == hs[..j];
      }
    }
  }

  /**
   The destroy loop: destroys every handle of the batch in order. Each
   handle that is not live when its turn comes (never allocated, already
   freed, or listed twice) yields one not-found report.
   */
  method DestroyBatch(d: LayerData, kind: ObjectKind, hs: seq<Handle>) returns (r: Step)
    requires Consistent(d)
    ensures BatchFreed(d, r.reg, kind, hs)
    ensures r.reports == MissingReports(d, kind, hs)
  {
    var reg := d;
    var reports: seq<Report> := [];
    assert NonNull(hs[..0]) == {};
    for i := 0 to |hs|
      invariant BatchFreed(d, reg, kind, hs[..i])
      invariant reports == MissingReports(d, kind, hs[..i])
    {
      var step := DestroyOne(d, reg, kind, hs, i);
      reg := step.reg;
      reports := reports + step.reports;
    }
    assert hs[..|hs|] == hs;
    r := Step(reg, reports);
  }

  /** One turn of the destroy loop: destroy `hs[i]`, keeping the loop's guarantee for one more handle. */
  method DestroyOne(d: LayerData, reg: LayerData, kind: ObjectKind, hs: seq<Handle>, i: nat) returns (step: Step)
    requires i < |hs| && BatchFreed(d, reg, kind, hs[..i])
    ensures BatchFreed(d, step.reg, kind, hs[..i + 1])
    ensures MissingReports(d, kind, hs[..i + 1]) == MissingReports(d, kind, hs[..i]) + step.reports
  {
    var h := hs[i];
    step := DestroyObject(reg, kind, h);
    assert hs[..i + 1] == hs[..i] + [h];
    BatchTurn(d, reg, step, kind, hs[..i], h);
    LiveAtTurn(d, reg, kind, hs[..i], h);
    ReportsTurn(d, kind, hs, i, step.reports, h == NullHandle || h in Partition(reg, kind));
  }

  /** The registry side of one turn. */
  lemma BatchTurn(d: LayerData, reg: LayerData, step: Step, kind: ObjectKind, done: seq<Handle>, h: Handle)
    requires BatchFreed(d, reg, kind, done)
    requires step == DestroyObject(reg, kind, h)
    ensures BatchFreed(d, step.reg, kind, done + [h])
  {
    var p := Partition(d, kind);
    var done' := NonNull(done);
    NonNullStep(done, h);
    if h == NullHandle {
      assert step.reg == reg;
    } else {
      MapMinusAdd(p, done', h);
      BatchCounts(p.Keys, done', h);
      if h in Partition(reg, kind) {
        assert h in p.Keys && h !in done';
        SameExceptTrans(d, reg, step.reg, kind);
      } else {
        assert step.reg == reg;
      }
    }
  }

  /** Removing one more key from a map difference; a key already absent changes nothing. */
  lemma MapMinusAdd(p: map<Handle, ObjRecord>, done: set<Handle>, h: Handle)
    ensures h in p - done ==> (p - done) - {h} == p - (done + {h})
    ensures h !in p - done ==> p - done == p - (done + {h})
  {
  }

  /** The report side of one turn: a turn that finds its handle live adds no report, any other adds one. */
  lemma ReportsTurn(d: LayerData, kind: ObjectKind, hs: seq<Handle>, i: nat, reports: seq<Report>, liveNow: bool)
    requires i < |hs|
    requires liveNow <==> hs[i] == NullHandle || (hs[i] in Partition(d, kind) && hs[i] !in hs[..i])
    requires reports == if liveNow then [] else [Report(kind, hs[i], UnknownObject)]
    ensures MissingReports(d, kind, hs[..i + 1]) == MissingReports(d, kind, hs[..i]) + reports
  {
    var prefix := hs[..i + 1];
    assert prefix[..i] == hs[..i] && prefix[i] == hs[i];
  }

  /** Appending a handle to a batch adds it to the non-null handles unless it is null. */
  lemma NonNullStep(done: seq<Handle>, h: Handle)
    ensures NonNull(done + [h]) == if h == NullHandle then NonNull(done) else NonNull(done) + {h}
  {
  }

  /** A non-null handle is live at its turn exactly when it was live in `d` and is not listed earlier. */
  lemma LiveAtTurn(d: LayerData, reg: LayerData, kind: ObjectKind, done: seq<Handle>, h: Handle)
    requires Partition(reg, kind) == Partition(d, kind) - NonNull(done)
    ensures h != NullHandle ==> (h in Partition(reg, kind) <==> h in Partition(d, kind) && h !in done)
  {
  }

  /** How the number of live batch handles grows by one turn. */
  lemma BatchCounts(keys: set<Handle>, done: set<Handle>, h: Handle)
    ensures h in keys && h !in done ==> |(done + {h}) * keys| == |done * keys| + 1
    ensures h !in keys || h in done ==> (done + {h}) * keys == done * keys
  {
    if h in keys && h !in done {
      assert (done + {h}) * keys == (done * keys) + {h};
    }
  }

  /**
   FreeCommandBuffers: the device and pool checks report but do not hold the
   call back; the call is forwarded exactly when every non-null buffer is a
   live buffer of the pool. The buffers are forgotten either way.
   */
  method FreeCommandBuffers(d: LayerData, deviceCheck: Option<Report>, pool: Handle, buffers: seq<Handle>)
    returns (r: Step, forwarded: bool)
    requires Consistent(d)
    ensures forwarded <==> forall i | 0 <= i < |buffers| && buffers[i] != NullHandle ::
                             Owned(d, CommandBuffer, pool, buffers[i])
    ensures BatchFreed(d, r.reg, CommandBuffer, buffers)
    ensures r.reports == Reported(deviceCheck)
                         + Reported(ValidateObject(d, CommandPool, pool, false, Vuid(0x28402801)))
                         + ParentFailures(d, CommandBuffer, pool, buffers, CommandBufferCodes)
                         + MissingReports(d, CommandBuffer, buffers)
  {
    var poolCheck := ValidateObject(d, CommandPool, pool, false, Vuid(0x28402801));
    var checks, skip := ValidateBatch(d, CommandBuffer, pool, buffers, CommandBufferCodes);
    var freed := DestroyBatch(d, CommandBuffer, buffers);
    r := Step(freed.reg, Reported(deviceCheck) + Reported(poolCheck) + checks + freed.reports);
    forwarded := !skip;
  }

  /**
   FreeDescriptorSets: the device check, the pool check and every set's
   parent check all feed `skip`; a skipped call returns the validation
   failure without reaching the driver. The sets are forgotten either way.
   */
  method FreeDescriptorSets(d: LayerData, deviceCheck: Option<Report>, pool: Handle, sets: seq<Handle>,
                            driverResult: VkResult)
    returns (r: Step, result: VkResult)
    requires Consistent(d)
    ensures var forwarded := deviceCheck == None && pool in Partition(d, DescriptorPool)
                             && forall i | 0 <= i < |sets| && sets[i] != NullHandle :: Owned(d, DescriptorSet, pool, sets[i]);
            result == if forwarded then driverResult else ValidationFailed
    ensures BatchFreed(d, r.reg, DescriptorSet, sets)
    ensures r.reports == Reported(deviceCheck)
                         + Reported(ValidateObject(d, DescriptorPool, pool, false, Vuid(0x28604601)))
                         + ParentFailures(d, DescriptorSet, pool, sets, DescriptorSetCodes)
                         + MissingReports(d, DescriptorSet, sets)
  {
    var poolCheck := ValidateObject(d, DescriptorPool, pool, false, Vuid(0x28604601));
    var checks, batchSkip := ValidateBatch(d, DescriptorSet, pool, sets, DescriptorSetCodes);
    var skip := deviceCheck.Some? || poolCheck.Some? || batchSkip;
    var freed := DestroyBatch(d, DescriptorSet, sets);
    r := Step(freed.reg, Reported(deviceCheck) + Reported(poolCheck) + checks + freed.reports);
    result := if skip then ValidationFailed else driverResult;
  }

  /**
   The quiet case: with a valid device and pool, and a batch of distinct
   buffers all allocated from that pool, freeing reports nothing.
   */
  lemma {:induction false} CleanFreeReportsNothing(d: LayerData, pool: Handle, buffers: seq<Handle>)
    requires pool in Partition(d, CommandPool)
    requires forall i | 0 <= i < |buffers| && buffers[i] != NullHandle :: Owned(d, CommandBuffer, pool, buffers[i])
    requires forall i, j | 0 <= i < j < |buffers| :: buffers[i] != buffers[j]
    ensures Reported(ValidateObject(d, CommandPool, pool, false, Vuid(0x28402801)))
            + ParentFailures(d, CommandBuffer, pool, buffers, CommandBufferCodes)
            + MissingReports(d, CommandBuffer, buffers) == []
  {
    ParentFailuresEmpty(d, CommandBuffer, pool, buffers, CommandBufferCodes);
    MissingReportsEmpty(d, CommandBuffer, buffers);
    forall j | 0 <= j < |buffers| ensures FoundLive(d, CommandBuffer, buffers, j) {
      forall a | 0 <= a < j ensures buffers[..j][a] != buffers[j] {
        assert buffers[a] != buffers[j];
      }
    }
  }

  /**
   Freeing the same batch twice: the second call finds none of the handles
   live, so it changes nothing in the registry.
   */
  lemma {:induction false} FreeTwiceChangesNothing(d: LayerData, e: LayerData, f: LayerData, kind: ObjectKind,
                                                   hs: seq<Handle>)
    requires BatchFreed(d, e, kind, hs) && BatchFreed(e, f, kind, hs)
    ensures Partition(f, kind) == Partition(e, kind)
    ensures Count(f, kind) == Count(e, kind) && f.numTotal == e.numTotal
  {
    assert NonNull(hs) * Partition(e, kind).Keys == {};
  }
}

=== FILE: cascade.dfy ===
/**
 Implicit destruction of children: resetting or destroying a descriptor pool
 removes its descriptor sets, destroying a command pool removes its command
 buffers, destroying a swapchain removes its images. Each entry point is one
 locked section: validate the arguments, and only when nothing was reported,
 remove the children and then the parent.
 */
module Cascade {

  import opened Wrappers
  import opened Registry
  import opened ParentChecks
  import opened Allocation

  /** The live, non-null handles of `kind` whose recorded parent is `parent`. */
  function Children(d: LayerData, kind: ObjectKind, parent: Handle): set<Handle> {
    set h | h in Partition(d, kind) && Partition(d, kind)[h].parent == parent && h != NullHandle
  }

  /**
   Reference definition of a cascade's effect on one partition: keep exactly
   the records whose parent is not `parent` (the null handle, which the
   destroy primitive ignores, is kept too).
   */
  function WithoutChildren(p: map<Handle, ObjRecord>, parent: Handle): map<Handle, ObjRecord> {
    map h | h in p && (p[h].parent != parent || h == NullHandle) :: p[h]
  }

  /** What a completed cascade over `kind` guarantees about the registry `e` it leaves. */
  ghost predicate ChildrenRemoved(d: LayerData, e: LayerData, kind: ObjectKind, parent: Handle) {
    && Consistent(e)
    && Partition(e, kind) == WithoutChildren(Partition(d, kind), parent)
    && Count(e, kind) == Count(d, kind) - |Children(d, kind, parent)|
    && e.numTotal == d.numTotal - |Children(d, kind, parent)|
    && SameExcept(d, e, kind)
  }

  /**
   The cascade loop: visits every child of `parent` (a snapshot taken before
   any removal) and destroys it. With `recheck` set, each child is first
   re-validated against `parent` as the command-pool cascade does. The step's
   reports collect every re-check and every destroy, so an empty list says
   that none of them reported.
   */
  method DestroyChildren(d: LayerData, kind: ObjectKind, parent: Handle, recheck: Option<ParentCodes>)
    returns (r: Step)
    requires Consistent(d)
    ensures ChildrenRemoved(d, r.reg, kind, parent)
    ensures r.reports == []
  {
    var victims := Children(d, kind, parent);
    var todo := victims;
    var reg := d;
    var reports: seq<Report> := [];
    CascadeStart(d, kind, parent);
    while todo != {}
      invariant CascadeInvariant(d, reg, kind, parent, victims, todo)
      invariant reports == []
      decreases |todo|
    {
      var h :| h in todo;
      var more;
      reg, more := CascadeOne(d, reg, kind, parent, victims, todo, h, recheck);
      reports := reports + more;
      todo := todo - {h};
    }
    CascadeDone(d, reg, kind, parent, victims);
    r := Step(reg, reports);
  }

  /**
   One visit of the cascade loop: the optional parent re-check of `h`, then
   its destruction. Neither reports: `h` is a live child of `parent`.
   */
  method CascadeOne(d: LayerData, reg: LayerData, kind: ObjectKind, parent: Handle,
                    victims: set<Handle>, todo: set<Handle>, h: Handle, recheck: Option<ParentCodes>)
    returns (next: LayerData, reports: seq<Report>)
    requires CascadeInvariant(d, reg, kind, parent, victims, todo) && h in todo
    ensures CascadeInvariant(d, next, kind, parent, victims, todo - {h})
    ensures recheck.Some? ==> ValidateParent(reg, kind, parent, h, recheck.value) == None
    ensures reports == []
  {
    CascadeVisit(d, reg, kind, parent, victims, todo, h);
    var check := if recheck.Some? then ValidateParent(reg, kind, parent, h, recheck.value) else None;
    var step := DestroyObject(reg, kind, h);
    CascadeStep(d, reg, step, kind, parent, victims, todo, h);
    next := step.reg;
    reports := Reported(check) + step.reports;
  }

  /** The loop invariant of the cascade: the children visited so far are gone, nothing else moved. */
  ghost predicate CascadeInvariant(d: LayerData, reg: LayerData, kind: ObjectKind, parent: Handle,
                                   victims: set<Handle>, todo: set<Handle>) {
    && victims == Children(d, kind, parent)
    && todo <= victims
    && Consistent(reg)
    && Partition(reg, kind) == Partition(d, kind) - (victims - todo)
    && Count(reg, kind) == Count(d, kind) - |victims - todo|
    && reg.numTotal == d.numTotal - |victims - todo|
    && SameExcept(d, reg, kind)
  }

  /** Before any visit the loop invariant holds, with every child still to visit. */
  lemma CascadeStart(d: LayerData, kind: ObjectKind, parent: Handle)
    requires Consistent(d)
    ensures CascadeInvariant(d, d, kind, parent, Children(d, kind, parent), Children(d, kind, parent))
  {
    var victims := Children(d, kind, parent);
    assert victims - victims == {};
    assert Partition(d, kind) - {} == Partition(d, kind);
  }

  /** A child still to visit is live, non-null, and owned by `parent`. */
  lemma CascadeVisit(d: LayerData, reg: LayerData, kind: ObjectKind, parent: Handle,
                     victims: set<Handle>, todo: set<Handle>, h: Handle)
    requires CascadeInvariant(d, reg, kind, parent, victims, todo) && h in todo
    ensures h in Partition(reg, kind) && Partition(reg, kind)[h].parent == parent && h != NullHandle
  {
  }

  /** Destroying one visited child re-establishes the invariant with that child done, silently. */
  lemma CascadeStep(d: LayerData, reg: LayerData, step: Step, kind: ObjectKind, parent: Handle,
                    victims: set<Handle>, todo: set<Handle>, h: Handle)
    requires CascadeInvariant(d, reg, kind, parent, victims, todo) && h in todo
    requires step == DestroyObject(reg, kind, h)
    ensures CascadeInvariant(d, step.reg, kind, parent, victims, todo - {h})
    ensures step.reports == []
  {
    CascadeVisit(d, reg, kind, parent, victims, todo, h);
    DoneGrows(victims, todo, h);
    MinusGrows(Partition(d, kind), victims - todo, h);
    SameExceptTrans(d, reg, step.reg, kind);
  }

  /** Removing one more key from a map difference. */
  lemma MinusGrows(p: map<Handle, ObjRecord>, done: set<Handle>, h: Handle)
    ensures (p - done) - {h} == p - (done + {h})
  {
  }

  /** With every child visited, the partition is exactly the reference `WithoutChildren`. */
  lemma CascadeDone(d: LayerData, reg: LayerData, kind: ObjectKind, parent: Handle, victims: set<Handle>)
    requires CascadeInvariant(d, reg, kind, parent, victims, {})
    ensures ChildrenRemoved(d, reg, kind, parent)
  {
    assert victims - {} == victims;
  }

  /** After a cascade no non-null record of `kind` names `parent`, and every other record is unchanged. */
  lemma {:induction false} NoChildRemains(d: LayerData, e: LayerData, kind: ObjectKind, parent: Handle)
    requires ChildrenRemoved(d, e, kind, parent)
    ensures forall h | h in Partition(e, kind) && h != NullHandle :: Partition(e, kind)[h].parent != parent
    ensures forall h | h in Partition(d, kind) && Partition(d, kind)[h].parent != parent ::
              h in Partition(e, kind) && Partition(e, kind)[h] == Partition(d, kind)[h]
    ensures forall k | k != kind :: Partition(e, k) == Partition(d, k)
  {
  }

  /**
   ResetDescriptorPool: when the device and the pool are valid, every
   descriptor set of the pool is removed and the pool stays; otherwise
   nothing changes and the call fails validation.
   */
  method ResetDescriptorPool(d: LayerData, deviceCheck: Option<Report>, pool: Handle, driverResult: VkResult)
    returns (r: Step, result: VkResult)
    requires Consistent(d)
    ensures var skip := deviceCheck != None || pool !in Partition(d, DescriptorPool);
            && (skip ==> r.reg == d && result == ValidationFailed && r.reports != [])
            && (skip ==> r.reports == Reported(deviceCheck)
                                      + Reported(ValidateObject(d, DescriptorPool, pool, false, Vuid(0x32a04601))))
            && (!skip ==> result == driverResult && r.reports == [] && ChildrenRemoved(d, r.reg, DescriptorSet, pool))
  {
    var poolCheck := ValidateObject(d, DescriptorPool, pool, false, Vuid(0x32a04601));
    var pre := Reported(deviceCheck) + Reported(poolCheck);
    if deviceCheck.Some? || poolCheck.Some? {
      return Step(d, pre), ValidationFailed;
    }
    r := DestroyChildren(d, DescriptorSet, pool, None);
    result := driverResult;
  }

  /**
   What destroying a pool guarantees: its children are gone as a cascade
   leaves them, the pool itself is gone (a null pool is ignored), the total
   drops by exactly that many, and every other kind is untouched.
   */
  ghost predicate PoolDestroyed(d: LayerData, e: LayerData, poolKind: ObjectKind, childKind: ObjectKind, pool: Handle) {
    && Consistent(e)
    && Partition(e, childKind) == WithoutChildren(Partition(d, childKind), pool)
    && Partition(e, poolKind) == (if pool == NullHandle then Partition(d, poolKind) else Partition(d, poolKind) - {pool})
    && e.numTotal == d.numTotal - |Children(d, childKind, pool)| - (if pool == NullHandle then 0 else 1)
    && (forall k | k != childKind && k != poolKind :: Partition(e, k) == Partition(d, k) && Count(e, k) == Count(d, k))
    && e.queueInfo == d.queueInfo
    && e.swapchainImages == d.swapchainImages
  }

  /**
   The shared body of DestroyDescriptorPool and DestroyCommandPool: when the
   device and the (possibly null) pool are valid, cascade over the pool's
   children, destroy the pool, and forward the call; otherwise report and
   change nothing.
   */
  method DestroyPool(d: LayerData, deviceCheck: Option<Report>, poolKind: ObjectKind, childKind: ObjectKind,
                     pool: Handle, poolCode: MessageCode, recheck: Option<ParentCodes>)
    returns (r: Step, forwarded: bool)
    requires Consistent(d) && poolKind != childKind
    ensures forwarded <==> deviceCheck == None && (pool == NullHandle || pool in Partition(d, poolKind))
    ensures !forwarded ==> r.reg == d && r.reports != []
    ensures !forwarded ==> r.reports == Reported(deviceCheck) + Reported(ValidateObject(d, poolKind, pool, true, poolCode))
    ensures forwarded ==> r.reports == [] && PoolDestroyed(d, r.reg, poolKind, childKind, pool)
  {
    var poolCheck := ValidateObject(d, poolKind, pool, true, poolCode);
    var pre := Reported(deviceCheck) + Reported(poolCheck);
    if deviceCheck.Some? || poolCheck.Some? {
      return Step(d, pre), false;
    }
    var children := DestroyChildren(d, childKind, pool, recheck);
    var last := DestroyObject(children.reg, poolKind, pool);
    PoolAfterChildren(d, children.reg, last, poolKind, childKind, pool);
    r := Step(last.reg, children.reports + last.reports);
    forwarded := true;
  }

  /** Destroying a valid pool after its cascade gives `PoolDestroyed`, silently. */
  lemma PoolAfterChildren(d: LayerData, mid: LayerData, last: Step, poolKind: ObjectKind, childKind: ObjectKind, pool: Handle)
    requires Consistent(d) && poolKind != childKind
    requires pool == NullHandle || pool in Partition(d, poolKind)
    requires ChildrenRemoved(d, mid, childKind, pool)
    requires last == DestroyObject(mid, poolKind, pool)
    ensures last.reports == []
    ensures PoolDestroyed(d, last.reg, poolKind, childKind, pool)
  {
    assert Partition(mid, poolKind) == Partition(d, poolKind);
    assert Count(last.reg, childKind) == Count(mid, childKind);
  }

  /** DestroyDescriptorPool: the pool code is 0x24404601 and its descriptor sets are not re-checked. */
  method DestroyDescriptorPool(d: LayerData, deviceCheck: Option<Report>, pool: Handle)
    returns (r: Step, forwarded: bool)
    requires Consistent(d)
    ensures forwarded <==> deviceCheck == None && (pool == NullHandle || pool in Partition(d, DescriptorPool))
    ensures !forwarded ==> r.reg == d && r.reports != []
    ensures !forwarded ==> r.reports == Reported(deviceCheck)
                                        + Reported(ValidateObject(d, DescriptorPool, pool, true, Vuid(0x24404601)))
    ensures forwarded ==> r.reports == [] && PoolDestroyed(d, r.reg, DescriptorPool, DescriptorSet, pool)
  {
    r, forwarded := DestroyPool(d, deviceCheck, DescriptorPool, DescriptorSet, pool, Vuid(0x24404601), None);
  }

  /** DestroyCommandPool: the pool code is 0x24002801 and each command buffer is re-checked against the pool. */
  method DestroyCommandPool(d: LayerData, deviceCheck: Option<Report>, pool: Handle)
    returns (r: Step, forwarded: bool)
    requires Consistent(d)
    ensures forwarded <==> deviceCheck == None && (pool == NullHandle || pool in Partition(d, CommandPool))
    ensures !forwarded ==> r.reg == d && r.reports != []
    ensures !forwarded ==> r.reports == Reported(deviceCheck)
                                        + Reported(ValidateObject(d, CommandPool, pool, true, Vuid(0x24002801)))
    ensures forwarded ==> r.reports == [] && PoolDestroyed(d, r.reg, CommandPool, CommandBuffer, pool)
  {
    r, forwarded := DestroyPool(d, deviceCheck, CommandPool, CommandBuffer, pool, Vuid(0x24002801), Some(CommandBufferCodes));
  }

  /**
   After a pool is destroyed no live, non-null child still names it as
   parent, the pool is no longer live, and the children of other pools are
   exactly as they were.
   */
  lemma {:induction false} DestroyedPoolLeavesNoOrphans(d: LayerData, e: LayerData, poolKind: ObjectKind,
                                                         childKind: ObjectKind, pool: Handle)
    requires PoolDestroyed(d, e, poolKind, childKind, pool) && pool != NullHandle
    ensures pool !in Partition(e, poolKind)
    ensures forall h | h in Partition(e, childKind) && h != NullHandle :: Partition(e, childKind)[h].parent != pool
    ensures forall h | h in Partition(d, childKind) && Partition(d, childKind)[h].parent != pool ::
              h in Partition(e, childKind) && Partition(e, childKind)[h] == Partition(d, childKind)[h]
  {
  }

  /**
   DestroySwapchainKHR: drops the swapchain's images from the swapchain-image
   map (no count changes), then destroys the swapchain itself, reporting it
   when it is not live. The call is always forwarded.
   */
  function DestroySwapchainKHR(d: LayerData, swapchain: Handle): (r: Step)
    requires Consistent(d)
    ensures Consistent(r.reg)
    ensures forall h :: h in r.reg.swapchainImages <==>
                          h in d.swapchainImages && d.swapchainImages[h].parent != swapchain
    ensures forall h | h in r.reg.swapchainImages :: r.reg.swapchainImages[h] == d.swapchainImages[h]
    ensures SameExcept(d.(swapchainImages := r.reg.swapchainImages), r.reg, SwapchainKHR)
    ensures swapchain in Partition(d, SwapchainKHR) && swapchain != NullHandle ==>
              && Partition(r.reg, SwapchainKHR) == Partition(d, SwapchainKHR) - {swapchain}
              && Count(r.reg, SwapchainKHR) == Count(d, SwapchainKHR) - 1
              && r.reg.numTotal == d.numTotal - 1
              && r.reports == []
    ensures swapchain !in Partition(d, SwapchainKHR) || swapchain == NullHandle ==>
              && Partition(r.reg, SwapchainKHR) == Partition(d, SwapchainKHR)
              && Count(r.reg, SwapchainKHR) == Count(d, SwapchainKHR)
              && r.reg.numTotal == d.numTotal
    ensures swapchain !in Partition(d, SwapchainKHR) && swapchain != NullHandle ==>
              r.reports == [Report(SwapchainKHR, swapchain, UnknownObject)]
    ensures swapchain == NullHandle ==> r.reports == []
  {
    var kept := d.(swapchainImages := ImagesNotOf(d.swapchainImages, swapchain));
    ConsistentReadsObjectsOnly(d, kept);
    DestroyObject(kept, SwapchainKHR, swapchain)
  }

  /** The swapchain images owned by anything but `swapchain`. */
  function ImagesNotOf(images: map<Handle, ObjRecord>, swapchain: Handle): (r: map<Handle, ObjRecord>)
    ensures forall h :: h in r <==> h in images && images[h].parent != swapchain
    ensures forall h | h in r :: r[h] == images[h]
  {
    map h | h in images && images[h].parent != swapchain :: images[h]
  }

  /**
   An image recorded for a swapchain goes when that swapchain is destroyed,
   while the images of other swapchains stay, and the registry invariant
   holds throughout.
   */
  lemma SwapchainImageGoesWithSwapchain(d: LayerData, image: Handle, swapchain: Handle, other: Handle)
    requires Consistent(d)
    ensures var e := CreateSwapchainImageObject(d, image, swapchain);
            Consistent(e) && image !in DestroySwapchainKHR(e, swapchain).reg.swapchainImages
    ensures other != swapchain ==>
              var e := CreateSwapchainImageObject(d, image, other);
              Consistent(e) && image in DestroySwapchainKHR(e, swapchain).reg.swapchainImages
  {
    ConsistentReadsObjectsOnly(d, CreateSwapchainImageObject(d, image, swapchain));
    ConsistentReadsObjectsOnly(d, CreateSwapchainImageObject(d, image, other));
  }
}

=== FILE: parent_checks.dfy ===
/**
 Parent checks: is a handle live, and was it allocated from the pool the
 caller names? Every check is a function of the registry alone, so a check
 cannot change any map or count.
 */
module ParentChecks {

  import opened Wrappers
  import opened Registry

  /** The two diagnostics of a parent check: handle not live, and handle owned by another parent. */
  datatype ParentCodes = ParentCodes(notFound: MessageCode, wrongParent: MessageCode)

  const CommandBufferCodes := ParentCodes(Vuid(0x28400060), Vuid(0x28411407))
  const DescriptorSetCodes := ParentCodes(Vuid(0x2860026c), Vuid(0x28613007))

  /**
   The shared shape of `ValidateCommandBuffer` and `ValidateDescriptorSet`:
   a not-found report when the handle is not live, a wrong-parent report when
   its recorded parent is not `parent`, and nothing otherwise.
   */
  function ValidateParent(d: LayerData, kind: ObjectKind, parent: Handle, h: Handle, codes: ParentCodes)
    : (r: Option<Report>)
    ensures h !in Partition(d, kind) ==> r == Some(Report(kind, h, codes.notFound))
    ensures (h in Partition(d, kind) && Partition(d, kind)[h].parent != parent)
              ==> r == Some(Report(kind, h, codes.wrongParent))
    ensures r == None <==> h in Partition(d, kind) && Partition(d, kind)[h].parent == parent
  {
    if h in Partition(d, kind) then
      if Partition(d, kind)[h].parent != parent then Some(Report(kind, h, codes.wrongParent)) else None
    else Some(Report(kind, h, codes.notFound))
  }

  /** Checks a command buffer handed back to `pool` (used by FreeCommandBuffers and DestroyCommandPool). */
  function ValidateCommandBuffer(d: LayerData, pool: Handle, cb: Handle): (r: Option<Report>)
    ensures cb !in Partition(d, CommandBuffer) ==> r == Some(Report(CommandBuffer, cb, Vuid(0x28400060)))
    ensures (cb in Partition(d, CommandBuffer) && Partition(d, CommandBuffer)[cb].parent != pool)
              ==> r == Some(Report(CommandBuffer, cb, Vuid(0x28411407)))
    ensures cb in Partition(d, CommandBuffer) && Partition(d, CommandBuffer)[cb].parent == pool ==> r == None
  {
    ValidateParent(d, CommandBuffer, pool, cb, CommandBufferCodes)
  }

  /** Checks a descriptor set handed back to `pool` (used by FreeDescriptorSets). */
  function ValidateDescriptorSet(d: LayerData, pool: Handle, ds: Handle): (r: Option<Report>)
    ensures ds !in Partition(d, DescriptorSet) ==> r == Some(Report(DescriptorSet, ds, Vuid(0x2860026c)))
    ensures (ds in Partition(d, DescriptorSet) && Partition(d, DescriptorSet)[ds].parent != pool)
              ==> r == Some(Report(DescriptorSet, ds, Vuid(0x28613007)))
    ensures ds in Partition(d, DescriptorSet) && Partition(d, DescriptorSet)[ds].parent == pool ==> r == None
  {
    ValidateParent(d, DescriptorSet, pool, ds, DescriptorSetCodes)
  }

  /**
   The device-handle check: searches the Device partition of every registry
   in the process, comparing each record's handle field; reports an invalid
   handle when no registry holds it.
   */
  function ValidateDeviceObject(world: map<Handle, LayerData>, device: Handle, invalidCode: MessageCode)
    : (r: Option<Report>)
    ensures r == None <==>
              exists key, rec | key in world && rec in Partition(world[key], Device).Values :: rec.handle == device
    ensures r != None ==> r == Some(Report(Device, device, invalidCode))
  {
    if exists key, rec | key in world && rec in Partition(world[key], Device).Values :: rec.handle == device
    then None
    else Some(Report(Device, device, invalidCode))
  }

  /**
   In a world of well-filed registries, searching record handles is the same
   as looking the handle up as a key of some registry's Device partition.
   */
  lemma ValidateDeviceObjectByKey(world: map<Handle, LayerData>, device: Handle, invalidCode: MessageCode)
    requires forall key | key in world :: WellFiled(world[key])
    ensures ValidateDeviceObject(world, device, invalidCode) == None
            <==> exists key | key in world :: device in Partition(world[key], Device)
  {
    if exists key | key in world :: device in Partition(world[key], Device) {
      var key :| key in world && device in Partition(world[key], Device);
      assert Partition(world[key], Device)[device] in Partition(world[key], Device).Values;
    }
    if ValidateDeviceObject(world, device, invalidCode) == None {
      var key, rec :| key in world && rec in Partition(world[key], Device).Values && rec.handle == device;
      var h :| h in Partition(world[key], Device) && Partition(world[key], Device)[h] == rec;
    }
  }
}

=== FILE: registry.dfy ===
/**
 The per-scope object registry of the object-tracker layer: every live object
 of a device (or instance) is an `ObjRecord` filed under its kind and handle,
 next to a live count per kind and a total live count. A device registry also
 carries two auxiliary maps: queue metadata and swapchain images.

 The generic primitives `CreateObject`, `ValidateObject`, `DestroyObject` and
 `DestroyObjectSilently` model the lookup / insert / remove operations every
 entry point of the layer is built from.
 */
module Registry {

  import opened Wrappers

  /** Opaque 64-bit handle; 0 is the null handle. */
  const HandleBound := 0x1_0000_0000_0000_0000
  type Handle = h: int | 0 <= h < HandleBound
  const NullHandle: Handle := 0

  /** The trackable object kinds (the layer's VulkanObjectType). */
  datatype ObjectKind =
    | Instance | PhysicalDevice | Device | Queue | Semaphore | CommandBuffer | Fence
    | DeviceMemory | Buffer | Image | Event | QueryPool | BufferView | ImageView
    | ShaderModule | PipelineCache | PipelineLayout | RenderPass | Pipeline
    | DescriptorSetLayout | Sampler | DescriptorPool | DescriptorSet | Framebuffer
    | CommandPool | SamplerYcbcrConversion | DescriptorUpdateTemplate | SurfaceKHR
    | SwapchainKHR | DisplayKHR | DisplayModeKHR | DebugReportCallbackEXT
    | DebugUtilsMessengerEXT | ValidationCacheEXT

  /** Kind-specific secondary state of a record. */
  datatype Status = StatusNone | CommandBufferSecondary

  /** One live tracked object (the layer's ObjTrackState). */
  datatype ObjRecord = ObjRecord(objectType: ObjectKind, handle: Handle, parent: Handle, status: Status)

  /** Queue metadata kept in the device's queue_info_map. */
  datatype QueueInfo = QueueInfo(queue: Handle, queueNodeIndex: nat)

  /**
   A registry (the layer's layer_data, restricted to its tracking state).
   `objectMap[k][h]` is `object_map[k][h]` (a kind absent from `objectMap`
   has no records); `numObjects[k]` is the live count of kind `k` (absent
   means 0); `numTotal` is the total live count.
   */
  datatype LayerData = LayerData(
    objectMap: map<ObjectKind, map<Handle, ObjRecord>>,
    numObjects: map<ObjectKind, nat>,
    numTotal: nat,
    queueInfo: map<Handle, QueueInfo>,
    swapchainImages: map<Handle, ObjRecord>)

  /** Diagnostic message identities handed to the diagnostic sink. */
  datatype MessageCode = Vuid(id: int) | UnknownObject | ObjectLeak

  /** An error-severity diagnostic about one object. */
  datatype Report = Report(kind: ObjectKind, handle: Handle, code: MessageCode)

  /** The registry state after a locked section, with the diagnostics it emitted. */
  datatype Step = Step(reg: LayerData, reports: seq<Report>)

  /** What an intercepted entry point returns to its caller. */
  datatype VkResult = Success | ValidationFailed | DriverError(code: int)

  /** The diagnostics an optional check emitted, as a sequence. */
  function Reported(o: Option<Report>): (s: seq<Report>)
    ensures |s| <= 1 && (s == [] <==> o == None)
  {
    if o.Some? then [o.value] else []
  }

  const EmptyLayerData := LayerData(map[], map[], 0, map[], map[])

  /** `object_map[k]`: the records of kind `k`, keyed by handle. */
  function Partition(d: LayerData, k: ObjectKind): map<Handle, ObjRecord> {
    if k in d.objectMap then d.objectMap[k] else map[]
  }

  /** The record filed under kind `k` and handle `h`, if any. */
  function Find(d: LayerData, k: ObjectKind, h: Handle): Option<ObjRecord> {
    if h in Partition(d, k) then Some(Partition(d, k)[h]) else None
  }

  /** `num_objects[k]`. */
  function Count(d: LayerData, k: ObjectKind): nat {
    if k in d.numObjects then d.numObjects[k] else 0
  }

  /** Some kind of a non-empty set of kinds: the fixed choice the sum below peels off first. */
  ghost function Pick(ks: set<ObjectKind>): ObjectKind
    requires ks != {}
  {
    var k :| k in ks; k
  }

  /** The number of records filed under the kinds `ks`. */
  ghost function SumSizes(m: map<ObjectKind, map<Handle, ObjRecord>>, ks: set<ObjectKind>): nat
    requires ks <= m.Keys
    decreases ks
  {
    if ks == {} then 0 else |m[Pick(ks)]| + SumSizes(m, ks - {Pick(ks)})
  }

  /** The number of live records of every kind. */
  ghost function LiveTotal(d: LayerData): nat {
    SumSizes(d.objectMap, d.objectMap.Keys)
  }

  /** Records are filed under their own kind and handle. */
  ghost predicate WellFiled(d: LayerData) {
    forall k, h | h in Partition(d, k) :: Partition(d, k)[h].objectType == k && Partition(d, k)[h].handle == h
  }

  /** The registry invariant: records are well filed and every count equals the size of what it counts. */
  ghost predicate Consistent(d: LayerData) {
    && WellFiled(d)
    && d.numTotal == LiveTotal(d)
    && (forall k :: Count(d, k) == |Partition(d, k)|)
  }

  /** Two registries agree on every kind except `k` and on both auxiliary maps. */
  ghost predicate SameExcept(d: LayerData, e: LayerData, k: ObjectKind) {
    && (forall k' | k' != k :: Partition(e, k') == Partition(d, k'))
    && (forall k' | k' != k :: Count(e, k') == Count(d, k'))
    && e.queueInfo == d.queueInfo
    && e.swapchainImages == d.swapchainImages
  }

  /** The invariant reads the object map and the counts only, not the auxiliary maps. */
  lemma ConsistentReadsObjectsOnly(d: LayerData, e: LayerData)
    requires d.objectMap == e.objectMap && d.numObjects == e.numObjects && d.numTotal == e.numTotal
    ensures forall k :: Partition(d, k) == Partition(e, k) && Count(d, k) == Count(e, k)
    ensures WellFiled(d) <==> WellFiled(e)
    ensures Consistent(d) <==> Consistent(e)
  {
    assert forall k :: Partition(d, k) == Partition(e, k) && Count(d, k) == Count(e, k);
  }

  /** Agreement outside one kind chains. */
  lemma SameExceptTrans(d: LayerData, e: LayerData, f: LayerData, k: ObjectKind)
    requires SameExcept(d, e, k) && SameExcept(e, f, k)
    ensures SameExcept(d, f, k)
  {
  }

  /** Inserting a record: the shape of every creation path (map insert, then both counts up by one). */
  function Insert(d: LayerData, rec: ObjRecord): (r: LayerData)
    ensures Partition(r, rec.objectType) == Partition(d, rec.objectType)[rec.handle := rec]
    ensures Count(r, rec.objectType) == Count(d, rec.objectType) + 1
    ensures r.numTotal == d.numTotal + 1
    ensures SameExcept(d, r, rec.objectType)
  {
    var k := rec.objectType;
    d.(objectMap := d.objectMap[k := Partition(d, k)[rec.handle := rec]],
       numObjects := d.numObjects[k := Count(d, k) + 1],
       numTotal := d.numTotal + 1)
  }

  /** The decrements are legal: the source asserts both counts positive before lowering them. */
  predicate CanDecrement(d: LayerData, k: ObjectKind, h: Handle)
    requires h in Partition(d, k)
  {
    d.numTotal > 0 && Count(d, Partition(d, k)[h].objectType) > 0
  }

  /** Erasing a record and lowering the counts of the record's own kind. */
  function Erase(d: LayerData, k: ObjectKind, h: Handle): (r: LayerData)
    requires h in Partition(d, k) && CanDecrement(d, k, h)
    ensures Partition(r, k) == Partition(d, k) - {h}
    ensures r.numTotal == d.numTotal - 1
    ensures Count(r, Partition(d, k)[h].objectType) == Count(d, Partition(d, k)[h].objectType) - 1
    ensures forall k' | k' != k :: Partition(r, k') == Partition(d, k')
    ensures forall k' | k' != Partition(d, k)[h].objectType :: Count(r, k') == Count(d, k')
    ensures r.queueInfo == d.queueInfo && r.swapchainImages == d.swapchainImages
  {
    var t := Partition(d, k)[h].objectType;
    d.(objectMap := d.objectMap[k := Partition(d, k) - {h}],
       numObjects := d.numObjects[t := Count(d, t) - 1],
       numTotal := d.numTotal - 1)
  }

  /** In a consistent registry every live record may be erased. */
  lemma ConsistentCanDecrement(d: LayerData, k: ObjectKind, h: Handle)
    requires Consistent(d) && h in Partition(d, k)
    ensures CanDecrement(d, k, h)
  {
    SumSizesRemove(d.objectMap, d.objectMap.Keys, k);
  }

  /** Create (the header's CreateObject): file a fresh record. */
  function CreateObject(d: LayerData, kind: ObjectKind, h: Handle, parent: Handle, status: Status): (r: LayerData)
    requires h !in Partition(d, kind)
    ensures Partition(r, kind) == Partition(d, kind)[h := ObjRecord(kind, h, parent, status)]
    ensures Count(r, kind) == Count(d, kind) + 1 && r.numTotal == d.numTotal + 1
    ensures SameExcept(d, r, kind)
    ensures Consistent(d) ==> Consistent(r)
  {
    InsertKeepsConsistent(d, ObjRecord(kind, h, parent, status));
    Insert(d, ObjRecord(kind, h, parent, status))
  }

  /** Validate (the header's ValidateObject): look the handle up in its kind's partition. */
  function ValidateObject(d: LayerData, kind: ObjectKind, h: Handle, nullAllowed: bool, invalidCode: MessageCode)
    : (r: Option<Report>)
    ensures r == None <==> (nullAllowed && h == NullHandle) || h in Partition(d, kind)
    ensures r != None ==> r == Some(Report(kind, h, invalidCode))
  {
    if nullAllowed && h == NullHandle then None
    else if h in Partition(d, kind) then None
    else Some(Report(kind, h, invalidCode))
  }

  /**
   Destroy (the header's DestroyObject): a null handle is ignored; a live
   handle is erased with both counts lowered; otherwise one not-found report
   and no change.
   */
  function DestroyObject(d: LayerData, kind: ObjectKind, h: Handle): (r: Step)
    requires Consistent(d)
    ensures Consistent(r.reg)
    ensures h !in Partition(r.reg, kind) || h == NullHandle
    ensures h in Partition(d, kind) && h != NullHandle ==>
              && Partition(r.reg, kind) == Partition(d, kind) - {h}
              && Count(r.reg, kind) == Count(d, kind) - 1
              && r.reg.numTotal == d.numTotal - 1
              && r.reports == []
    ensures h !in Partition(d, kind) || h == NullHandle ==> r.reg == d
    ensures h !in Partition(d, kind) && h != NullHandle ==> r.reports == [Report(kind, h, UnknownObject)]
    ensures h == NullHandle ==> r.reports == []
    ensures SameExcept(d, r.reg, kind)
  {
    if h == NullHandle then Step(d, [])
    else if h in Partition(d, kind) then Step(DestroyObjectSilently(d, kind, h), [])
    else Step(d, [Report(kind, h, UnknownObject)])
  }

  /**
   Silent destroy (the header's DestroyObjectSilently), used by the cascades
   and teardown: the handle must be live (the source asserts it) and is erased
   without any report.
   */
  function DestroyObjectSilently(d: LayerData, kind: ObjectKind, h: Handle): (r: LayerData)
    requires Consistent(d) && h in Partition(d, kind)
    ensures Consistent(r)
    ensures Partition(r, kind) == Partition(d, kind) - {h}
    ensures Count(r, kind) == Count(d, kind) - 1 && r.numTotal == d.numTotal - 1
    ensures SameExcept(d, r, kind)
  {
    ConsistentCanDecrement(d, kind, h);
    EraseKeepsConsistent(d, kind, h);
    Erase(d, kind, h)
  }

  /** Erasing a live record keeps the registry invariant. */
  lemma EraseKeepsConsistent(d: LayerData, k: ObjectKind, h: Handle)
    requires Consistent(d) && h in Partition(d, k) && CanDecrement(d, k, h)
    ensures Consistent(Erase(d, k, h))
  {
    var r := Erase(d, k, h);
    assert Partition(d, k)[h].objectType == k;
    assert Partition(r, k).Keys == Partition(d, k).Keys - {h};
    SumSizesUpdate(d.objectMap, k, Partition(d, k) - {h});
  }

  /** Filing a fresh record keeps the registry invariant. */
  lemma InsertKeepsConsistent(d: LayerData, rec: ObjRecord)
    requires rec.handle !in Partition(d, rec.objectType)
    ensures Consistent(d) ==> Consistent(Insert(d, rec))
  {
    if Consistent(d) {
      var r := Insert(d, rec);
      InsertKeepsTotal(d, rec);
      InsertKeepsCounts(d, rec);
      InsertKeepsWellFiled(d, rec);
    }
  }

  lemma InsertKeepsTotal(d: LayerData, rec: ObjRecord)
    requires rec.handle !in Partition(d, rec.objectType)
    ensures LiveTotal(Insert(d, rec)) == LiveTotal(d) + 1
  {
    var r := Insert(d, rec);
    assert Partition(r, rec.objectType).Keys == Partition(d, rec.objectType).Keys + {rec.handle};
    SumSizesUpdate(d.objectMap, rec.objectType, Partition(r, rec.objectType));
  }

  lemma InsertKeepsCounts(d: LayerData, rec: ObjRecord)
    requires rec.handle !in Partition(d, rec.objectType)
    requires forall k :: Count(d, k) == |Partition(d, k)|
    ensures forall k :: Count(Insert(d, rec), k) == |Partition(Insert(d, rec), k)|
  {
    var r := Insert(d, rec);
    assert Partition(r, rec.objectType).Keys == Partition(d, rec.objectType).Keys + {rec.handle};
  }

  lemma InsertKeepsWellFiled(d: LayerData, rec: ObjRecord)
    requires WellFiled(d)
    ensures WellFiled(Insert(d, rec))
  {
    var r := Insert(d, rec);
    forall k, h | h in Partition(r, k)
      ensures Partition(r, k)[h].objectType == k && Partition(r, k)[h].handle == h
    {
      if k == rec.objectType && h != rec.handle {
        assert Partition(r, k)[h] == Partition(d, k)[h];
      }
    }
  }

  /** Peeling off any kind, not only the chosen one, splits the sum. */
  lemma {:induction false} SumSizesRemove(m: map<ObjectKind, map<Handle, ObjRecord>>, ks: set<ObjectKind>, k0: ObjectKind)
    requires ks <= m.Keys && k0 in ks
    ensures SumSizes(m, ks) == |m[k0]| + SumSizes(m, ks - {k0})
    decreases ks
  {
    var k := Pick(ks);
    if k != k0 {
      SumSizesRemove(m, ks - {k}, k0);
      SumSizesRemove(m, ks - {k0}, k);
      assert ks - {k} - {k0} == ks - {k0} - {k};
    }
  }

  /** The sum reads only the sizes of the summed partitions. */
  lemma {:induction false} SumSizesSame(m: map<ObjectKind, map<Handle, ObjRecord>>, m': map<ObjectKind, map<Handle, ObjRecord>>, ks: set<ObjectKind>)
    requires ks <= m.Keys && ks <= m'.Keys
    requires forall k | k in ks :: |m[k]| == |m'[k]|
    ensures SumSizes(m, ks) == SumSizes(m', ks)
    decreases ks
  {
    if ks != {} {
      SumSizesSame(m, m', ks - {Pick(ks)});
    }
  }

  /** Replacing one partition changes the total by the difference in its size. */
  lemma SumSizesUpdate(m: map<ObjectKind, map<Handle, ObjRecord>>, k0: ObjectKind, v: map<Handle, ObjRecord>)
    ensures SumSizes(m[k0 := v], m[k0 := v].Keys) + (if k0 in m then |m[k0]| else 0) == SumSizes(m, m.Keys) + |v|
  {
    var m' := m[k0 := v];
    var rest := m.Keys - {k0};
    SumSizesRemove(m', m'.Keys, k0);
    assert m'.Keys - {k0} == rest;
    SumSizesSame(m', m, rest);
    if k0 in m {
      SumSizesRemove(m, m.Keys, k0);
    } else {
      assert m.Keys - {k0} == m.Keys;
    }
  }

  /** A set-iteration loop visiting `h` moves it from the to-do part to the done part, which grows by one. */
  lemma DoneGrows(all: set<Handle>, todo: set<Handle>, h: Handle)
    requires todo <= all && h in todo
    ensures all - (todo - {h}) == (all - todo) + {h}
    ensures |all - (todo - {h})| == |all - todo| + 1
  {
    assert all - (todo - {h}) == (all - todo) + {h};
  }

  /**
   The lifetime of one handle as the validation primitive sees it: silent once
   created, not found again once destroyed, while the counts return to where
   they started.
   */
  lemma CreateDestroyValidate(d: LayerData, kind: ObjectKind, h: Handle, parent: Handle, status: Status,
                              nullAllowed: bool, code: MessageCode)
    requires Consistent(d) && h !in Partition(d, kind) && h != NullHandle
    ensures var created := CreateObject(d, kind, h, parent, status);
            var destroyed := DestroyObject(created, kind, h);
            && ValidateObject(created, kind, h, nullAllowed, code) == None
            && destroyed.reports == []
            && ValidateObject(destroyed.reg, kind, h, nullAllowed, code) == Some(Report(kind, h, code))
            && Partition(destroyed.reg, kind) == Partition(d, kind)
            && Count(destroyed.reg, kind) == Count(d, kind)
            && destroyed.reg.numTotal == d.numTotal
  {
  }

  /** Destroying a handle a second time is reported as unknown and changes nothing. */
  lemma DestroyTwice(d: LayerData, kind: ObjectKind, h: Handle)
    requires Consistent(d) && h != NullHandle
    ensures var once := DestroyObject(d, kind, h);
            var twice := DestroyObject(once.reg, kind, h);
            && twice.reports == [Report(kind, h, UnknownObject)]
            && twice.reg == once.reg
            && Count(twice.reg, kind) == Count(once.reg, kind)
  {
  }
}

=== FILE: teardown.dfy ===
/**
 Device teardown: dropping the queue bookkeeping, reporting the objects of a
 kind that were never destroyed, and destroying them silently.
 */
module Teardown {

  import opened Registry

  /** The auxiliary queue map emptied; everything else as in `d`. */
  function ClearQueueInfo(d: LayerData): (r: LayerData)
    ensures r.queueInfo == map[]
    ensures r.objectMap == d.objectMap && r.numObjects == d.numObjects && r.numTotal == d.numTotal
    ensures r.swapchainImages == d.swapchainImages
  {
    d.(queueInfo := map[])
  }

  /**
   The decrements of the queue loop are legal: every queue record is filed
   under its own kind, and neither count is smaller than the number of queues
   the loop will subtract from it.
   */
  ghost predicate QueuesRemovable(d: LayerData) {
    && WellFiled(d)
    && |Partition(d, Queue)| <= d.numTotal
    && |Partition(d, Queue)| <= Count(d, Queue)
  }

  /**
   DestroyQueueDataStructures: clear the queue metadata, then erase every
   queue record, lowering the total and the count of the record's own kind
   once per record. No other kind, count or map changes.
   */
  method DestroyQueueDataStructures(d: LayerData) returns (r: LayerData)
    requires QueuesRemovable(d)
    ensures Partition(r, Queue) == map[]
    ensures Count(r, Queue) == Count(d, Queue) - |Partition(d, Queue)|
    ensures r.numTotal == d.numTotal - |Partition(d, Queue)|
    ensures r.queueInfo == map[]
    ensures SameExcept(ClearQueueInfo(d), r, Queue)
    ensures Consistent(d) ==> Consistent(r)
  {
    var start := ClearQueueInfo(d);
    var reg := start;
    ConsistentReadsObjectsOnly(d, start);
    while Partition(reg, Queue) != map[]
      invariant QueueLoopInvariant(d, start, reg)
      decreases |Partition(reg, Queue)|
    {
      var h :| h in Partition(reg, Queue);
      reg := EraseQueue(d, start, reg, h);
    }
    QueueLoopDone(d, start, reg);
    r := reg;
  }

  /** The queue loop's invariant: the queues still filed are some of the original ones, the counts fell by the rest. */
  ghost predicate QueueLoopInvariant(d: LayerData, start: LayerData, reg: LayerData) {
    && QueuesRemovable(d)
    && start == ClearQueueInfo(d)
    && WellFiled(reg)
    && Partition(reg, Queue).Keys <= Partition(d, Queue).Keys
    && Count(reg, Queue) == Count(d, Queue) - (|Partition(d, Queue)| - |Partition(reg, Queue)|)
    && reg.numTotal == d.numTotal - (|Partition(d, Queue)| - |Partition(reg, Queue)|)
    && SameExcept(start, reg, Queue)
    && (Consistent(d) ==> Consistent(reg))
  }

  /** One iteration of the queue loop: erase queue `h`, whose record is a queue record. */
  method EraseQueue(d: LayerData, start: LayerData, reg: LayerData, h: Handle) returns (next: LayerData)
    requires QueueLoopInvariant(d, start, reg) && h in Partition(reg, Queue)
    ensures QueueLoopInvariant(d, start, next)
    ensures |Partition(next, Queue)| == |Partition(reg, Queue)| - 1
  {
    QueueEraseLegal(d, start, reg, h);
    next := Erase(reg, Queue, h);
    EraseQueueKeeps(d, start, reg, h);
  }

  /** The two source assertions hold at every queue the loop visits. */
  lemma QueueEraseLegal(d: LayerData, start: LayerData, reg: LayerData, h: Handle)
    requires QueueLoopInvariant(d, start, reg) && h in Partition(reg, Queue)
    ensures Partition(reg, Queue)[h].objectType == Queue
    ensures CanDecrement(reg, Queue, h)
  {
    var keys := Partition(reg, Queue).Keys;
    assert h in keys;
    assert |Partition(reg, Queue)| == |keys| >= 1;
  }

  lemma EraseQueueKeeps(d: LayerData, start: LayerData, reg: LayerData, h: Handle)
    requires QueueLoopInvariant(d, start, reg) && h in Partition(reg, Queue)
    requires Partition(reg, Queue)[h].objectType == Queue && CanDecrement(reg, Queue, h)
    ensures QueueLoopInvariant(d, start, Erase(reg, Queue, h))
    ensures |Partition(Erase(reg, Queue, h), Queue)| == |Partition(reg, Queue)| - 1
  {
    var next := Erase(reg, Queue, h);
    assert Partition(next, Queue).Keys == Partition(reg, Queue).Keys - {h};
    assert WellFiled(next) by {
      forall k, x | x in Partition(next, k)
        ensures Partition(next, k)[x].objectType == k && Partition(next, k)[x].handle == x
      {
        assert x in Partition(reg, k) && Partition(next, k)[x] == Partition(reg, k)[x];
      }
    }
    if Consistent(d) {
      EraseKeepsConsistent(reg, Queue, h);
    }
  }

  /** When the loop stops, the queue partition is empty and the counts fell by the original number of queues. */
  lemma QueueLoopDone(d: LayerData, start: LayerData, reg: LayerData)
    requires QueueLoopInvariant(d, start, reg) && Partition(reg, Queue) == map[]
    ensures Count(reg, Queue) == Count(d, Queue) - |Partition(d, Queue)|
    ensures reg.numTotal == d.numTotal - |Partition(d, Queue)|
  {
    assert |Partition(reg, Queue)| == 0;
  }

  /** A consistent registry always meets the queue loop's precondition. */
  lemma ConsistentQueuesRemovable(d: LayerData)
    requires Consistent(d)
    ensures QueuesRemovable(d)
  {
    if Queue in d.objectMap {
      SumSizesRemove(d.objectMap, d.objectMap.Keys, Queue);
    }
  }

  /** The reports DeviceReportUndestroyedObjects owes: one leak report per record of `kind`, naming the record's handle. */
  function LeakReports(d: LayerData, kind: ObjectKind, code: MessageCode): set<Report> {
    set h | h in Partition(d, kind) :: Report(kind, Partition(d, kind)[h].handle, code)
  }

  /**
   DeviceReportUndestroyedObjects: one report per record still filed under
   `kind`, in some order, each with the given code and the record's handle.
   The registry is only read.
   */
  method DeviceReportUndestroyedObjects(d: LayerData, kind: ObjectKind, code: MessageCode) returns (reports: seq<Report>)
    ensures |reports| == |Partition(d, kind)|
    ensures forall i | 0 <= i < |reports| :: reports[i] in LeakReports(d, kind, code)
    ensures forall x | x in LeakReports(d, kind, code) :: x in reports
  {
    var todo := Partition(d, kind).Keys;
    reports := [];
    while todo != {}
      invariant ReportLoopInvariant(d, kind, code, todo, reports)
      decreases |todo|
    {
      var h :| h in todo;
      reports := ReportOne(d, kind, code, todo, reports, h);
      todo := todo - {h};
    }
    assert Partition(d, kind).Keys - {} == Partition(d, kind).Keys;
  }

  /** The report loop's invariant: every visited record has its report, and nothing else was reported. */
  ghost predicate ReportLoopInvariant(d: LayerData, kind: ObjectKind, code: MessageCode,
                                      todo: set<Handle>, reports: seq<Report>) {
    && todo <= Partition(d, kind).Keys
    && |reports| == |Partition(d, kind).Keys - todo|
    && (forall i | 0 <= i < |reports| :: reports[i] in LeakReports(d, kind, code))
    && (forall h | h in Partition(d, kind) && h !in todo :: Report(kind, Partition(d, kind)[h].handle, code) in reports)
  }

  /** One iteration of the report loop: append the report for record `h`. */
  method ReportOne(d: LayerData, kind: ObjectKind, code: MessageCode, todo: set<Handle>, reports: seq<Report>, h: Handle)
    returns (next: seq<Report>)
    requires ReportLoopInvariant(d, kind, code, todo, reports) && h in todo
    ensures ReportLoopInvariant(d, kind, code, todo - {h}, next)
  {
    DoneGrows(Partition(d, kind).Keys, todo, h);
    var leak := Report(kind, Partition(d, kind)[h].handle, code);
    assert leak in LeakReports(d, kind, code);
    next := reports + [leak];
  }

  /** In a well-filed registry the leak reports are exactly the live handles of the kind, none twice. */
  lemma LeakReportsAreLiveHandles(d: LayerData, kind: ObjectKind, code: MessageCode)
    requires WellFiled(d)
    ensures forall x | x in LeakReports(d, kind, code) :: x.kind == kind && x.code == code && x.handle in Partition(d, kind)
    ensures forall h | h in Partition(d, kind) :: Report(kind, h, code) in LeakReports(d, kind, code)
  {
    forall h | h in Partition(d, kind) ensures Report(kind, h, code) in LeakReports(d, kind, code) {
      assert Partition(d, kind)[h].handle == h;
    }
  }

  /**
   DeviceDestroyUndestroyedObjects: while the partition of `kind` is not
   empty, silently destroy one of its records by the handle the record holds.
   Afterwards the partition is empty and its count zero; nothing else moves.
   */
  method DeviceDestroyUndestroyedObjects(d: LayerData, kind: ObjectKind) returns (r: LayerData)
    requires Consistent(d)
    ensures Consistent(r)
    ensures Partition(r, kind) == map[] && Count(r, kind) == 0
    ensures r.numTotal == d.numTotal - |Partition(d, kind)|
    ensures SameExcept(d, r, kind)
  {
    r := d;
    while Partition(r, kind) != map[]
      invariant Consistent(r)
      invariant r.numTotal == d.numTotal - (|Partition(d, kind)| - |Partition(r, kind)|)
      invariant SameExcept(d, r, kind)
      decreases |Partition(r, kind)|
    {
      r := DestroyOneLeft(d, r, kind);
    }
  }

  /** One iteration: destroy the first record found, by its own handle field. */
  method DestroyOneLeft(d: LayerData, reg: LayerData, kind: ObjectKind) returns (next: LayerData)
    requires Consistent(reg) && Partition(reg, kind) != map[]
    requires reg.numTotal == d.numTotal - (|Partition(d, kind)| - |Partition(reg, kind)|)
    requires SameExcept(d, reg, kind)
    ensures Consistent(next)
    ensures |Partition(next, kind)| == |Partition(reg, kind)| - 1
    ensures next.numTotal == d.numTotal - (|Partition(d, kind)| - |Partition(next, kind)|)
    ensures SameExcept(d, next, kind)
  {
    var h :| h in Partition(reg, kind);
    var handle := Partition(reg, kind)[h].handle;
    assert handle == h;
    next := DestroyObjectSilently(reg, kind, handle);
    assert Partition(next, kind).Keys == Partition(reg, kind).Keys - {h};
    SameExceptTrans(d, reg, next, kind);
  }
}

=== FILE: test_log.dfy ===
/**
 The log classifier's line-driven state machine. Each input line is given by
 what the classifier's patterns find in it; the state is the current
 profile, the test now running (empty when none), that test's captured
 output, a verdict per (test, profile), and the (test, profile) pairs that
 printed an unexpected error. A run ends early in one of two ways: the
 script exits on a test that died, or an assertion (or a failed name
 lookup) aborts it.
 */
module TestLog {

  import opened Wrappers

  /** A recorded per-profile outcome of one test. */
  datatype Verdict = Pass | Fail | Skip

  /**
   One input line, as the classifier's patterns see it:
   - `profile`: the text after the last `/` of a "Testing with profile" line;
   - `separator`: a `[---]` banner (any number of dashes, even none);
   - `run`: a `[ RUN ]` banner, and `runName` the text after its first `] `,
     `None` when the line has no `] ` to extract a name from;
   - `skipped`, `ok`, `failed`: the TEST_SKIPPED marker, `[ OK ]` and
     `[ FAILED ]` banners;
   - `unexpected`: the line starts with "Unexpected: ".
   */
  datatype Line = Line(text: string, profile: Option<string>, separator: bool, run: bool, runName: Option<string>,
                       skipped: bool, ok: bool, failed: bool, unexpected: bool)

  datatype Stats = Stats(profile: string, current: string, output: string,
                         results: map<string, map<string, Verdict>>, unexpected: set<(string, string)>)

  /** The script still reading, stopped by a dead test (with the output it prints), or aborted. */
  datatype Run = Live(stats: Stats) | Died(output: string) | Crashed

  const Initial := Stats("", "", "", map[], {})

  /** The verdict recorded for `test` under `profile`, if any. */
  function Lookup(results: map<string, map<string, Verdict>>, test: string, profile: string): Option<Verdict> {
    if test in results && profile in results[test] then Some(results[test][profile]) else None
  }

  /** `results[test][profile] = v` on a two-level default dictionary. */
  function Record(results: map<string, map<string, Verdict>>, test: string, profile: string, v: Verdict)
    : (r: map<string, map<string, Verdict>>)
    ensures Lookup(r, test, profile) == Some(v)
    ensures forall t, p | t != test || p != profile :: Lookup(r, t, p) == Lookup(results, t, p)
    ensures r.Keys == results.Keys + {test}
  {
    results[test := (if test in results then results[test] else map[])[profile := v]]
  }

  /** A profile line switches the current profile; any other line leaves the state alone. */
  function NewProfileMatch(s: Stats, line: Line): (r: Stats)
    ensures r.profile == (if line.profile.Some? then line.profile.value else s.profile)
    ensures r.(profile := s.profile) == s
  {
    if line.profile.Some? then s.(profile := line.profile.value) else s
  }

  /** A separator while a test is running means that test died: the script stops with the test's output. */
  function TestSuiteEndMatch(s: Stats, line: Line): (r: Run)
    ensures r.Died? <==> line.separator && s.current != ""
    ensures r.Died? ==> r.output == s.output
    ensures !r.Died? ==> r == Live(s)
  {
    if line.separator && s.current != "" then Died(s.output) else Live(s)
  }

  /**
   A RUN banner starts a test: it aborts the script when a test is already
   running (the assertion) or when no name can be extracted; otherwise the
   named test becomes current and its output starts empty.
   */
  function StartTestMatch(s: Stats, line: Line): (r: Run)
    ensures r == Crashed <==> line.run && (s.current != "" || line.runName.None?)
    ensures r != Crashed ==> r.Live?
    ensures r.Live? && line.run ==> r.stats == s.(current := line.runName.value, output := "")
    ensures !line.run ==> r == Live(s)
  {
    if !line.run then Live(s)
    else if s.current != "" then Crashed
    else if line.runName.None? then Crashed
    else Live(s.(current := line.runName.value, output := ""))
  }

  /** TEST_SKIPPED records a skip for the current (test, profile), running or not. */
  function SkipTestMatch(s: Stats, line: Line): (r: Stats)
    ensures line.skipped ==> Lookup(r.results, s.current, s.profile) == Some(Skip)
    ensures forall t, p | !line.skipped || t != s.current || p != s.profile ::
              Lookup(r.results, t, p) == Lookup(s.results, t, p)
    ensures r.(results := s.results) == s
  {
    if line.skipped then s.(results := Record(s.results, s.current, s.profile, Skip)) else s
  }

  /**
   An OK banner records a pass for the current (test, profile) unless a skip
   is already recorded there, and always ends the current test.
   */
  function PassTestMatch(s: Stats, line: Line): (r: Stats)
    ensures line.ok ==> r.current == ""
    ensures line.ok && Lookup(s.results, s.current, s.profile) == Some(Skip) ==> r.results == s.results
    ensures line.ok && Lookup(s.results, s.current, s.profile) != Some(Skip) ==>
              Lookup(r.results, s.current, s.profile) == Some(Pass)
    ensures forall t, p | t != s.current || p != s.profile :: Lookup(r.results, t, p) == Lookup(s.results, t, p)
    ensures r.(results := s.results, current := s.current) == s
    ensures !line.ok ==> r == s
  {
    if !line.ok then s
    else if Lookup(s.results, s.current, s.profile) != Some(Skip) then
      s.(results := Record(s.results, s.current, s.profile, Pass), current := "")
    else s.(current := "")
  }

  /** A FAILED banner records a failure and ends the test, but only while a test is running. */
  function FailTestMatch(s: Stats, line: Line): (r: Stats)
    ensures line.failed && s.current != "" ==>
              && r.current == ""
              && Lookup(r.results, s.current, s.profile) == Some(Fail)
              && (forall t, p | t != s.current || p != s.profile :: Lookup(r.results, t, p) == Lookup(s.results, t, p))
              && r.(results := s.results, current := s.current) == s
    ensures !(line.failed && s.current != "") ==> r == s
  {
    if line.failed && s.current != "" then
      s.(results := Record(s.results, s.current, s.profile, Fail), current := "")
    else s
  }

  /** An "Unexpected: " line flags the current (test, profile). */
  function UnexpectedErrorMatch(s: Stats, line: Line): (r: Stats)
    ensures (s.current, s.profile) in r.unexpected <==> line.unexpected || (s.current, s.profile) in s.unexpected
    ensures forall x | x != (s.current, s.profile) :: x in r.unexpected <==> x in s.unexpected
    ensures r.(unexpected := s.unexpected) == s
  {
    if line.unexpected then s.(unexpected := s.unexpected + {(s.current, s.profile)}) else s
  }

  /** While a test is running, the line joins its captured output. */
  function CaptureOutput(s: Stats, line: Line): (r: Stats)
    ensures r.output == if s.current != "" then s.output + line.text else s.output
    ensures r.(output := s.output) == s
  {
    if s.current != "" then s.(output := s.output + line.text) else s
  }

  /**
   `match`: every pattern is tried on every line, in the source's order;
   the script stops at the first step that ends it, and a stopped run
   consumes nothing more.
   */
  function Match(run: Run, line: Line): (r: Run)
    ensures !run.Live? ==> r == run
  {
    match run
    case Died(_) => run
    case Crashed => run
    case Live(s0) =>
      var s1 := NewProfileMatch(s0, line);
      match TestSuiteEndMatch(s1, line)
      case Died(out) => Died(out)
      case _ =>
        match StartTestMatch(s1, line)
        case Live(s2) =>
          var s3 := CaptureOutput(s2, line);
          Live(UnexpectedErrorMatch(FailTestMatch(PassTestMatch(SkipTestMatch(s3, line), line), line), line))
        case other => other
  }

  /** The run after feeding `lines` in order. */
  function Feed(run: Run, lines: seq<Line>): Run
    decreases |lines|
  {
    if lines == [] then run else Feed(Match(run, lines[0]), lines[1..])
  }

  /** A run that has stopped stays stopped, with the same output, whatever follows. */
  lemma {:induction false} StoppedRunStays(run: Run, lines: seq<Line>)
    requires !run.Live?
    ensures Feed(run, lines) == run
    decreases |lines|
  {
    if lines != [] {
      StoppedRunStays(Match(run, lines[0]), lines[1..]);
    }
  }

  /** Feeding two chunks one after the other is feeding their concatenation. */
  lemma {:induction false} FeedAppend(run: Run, xs: seq<Line>, ys: seq<Line>)
    ensures Feed(run, xs + ys) == Feed(Feed(run, xs), ys)
    decreases |xs|
  {
    if xs != [] {
      assert (xs + ys)[0] == xs[0] && (xs + ys)[1..] == xs[1..] + ys;
      FeedAppend(Match(run, xs[0]), xs[1..], ys);
      assert Feed(run, xs + ys) == Feed(Match(run, xs[0]), xs[1..] + ys);
    } else {
      assert xs + ys == ys;
    }
  }

  /** A separator while a test is running ends the script with the output captured so far. */
  lemma SeparatorWhileRunningDies(s: Stats, line: Line)
    requires line.separator && s.current != ""
    ensures Match(Live(s), line) == Died(s.output)
  {
  }

  /** A RUN banner while a test is running aborts the script, unless the same line is also a separator. */
  lemma RunWhileRunningCrashes(s: Stats, line: Line)
    requires line.run && !line.separator && s.current != ""
    ensures Match(Live(s), line) == Crashed
  {
  }

  /**
   Captured output: a RUN line restarts it (with the RUN line itself when
   the new name is not empty); any other line is appended exactly when a
   test was running, and the output is otherwise untouched.
   */
  lemma OutputOnlyWhileRunning(s: Stats, line: Line)
    requires Match(Live(s), line).Live?
    ensures var out := Match(Live(s), line).stats.output;
            && (line.run ==> out == (if line.runName.value != "" then line.text else ""))
            && (!line.run && s.current != "" ==> out == s.output + line.text)
            && (!line.run && s.current == "" ==> out == s.output)
  {
  }

  /**
   After a line is read, no test is running if the line was an OK banner,
   or a FAILED banner; a FAILED banner while nothing runs records nothing.
   */
  lemma BannersEndTest(s: Stats, line: Line)
    requires Match(Live(s), line).Live?
    ensures line.ok || (line.failed && (s.current != "" || line.run)) ==> Match(Live(s), line).stats.current == ""
    ensures line.failed && !line.ok && !line.skipped && !line.run && s.current == "" ==>
              Match(Live(s), line).stats.results == s.results
  {
  }

  /**
   The skipped-test pattern of the log: inside a running test, a
   TEST_SKIPPED line followed by the OK banner leaves the skip recorded
   and ends the test.
   */
  lemma {:induction false} SkipThenOkStaysSkipped(s: Stats, skipLine: Line, okLine: Line)
    requires s.current != ""
    requires skipLine == Line(skipLine.text, None, false, false, None, true, false, false, false)
    requires okLine == Line(okLine.text, None, false, false, None, false, true, false, false)
    ensures Feed(Live(s), [skipLine, okLine]).Live?
    ensures Lookup(Feed(Live(s), [skipLine, okLine]).stats.results, s.current, s.profile) == Some(Skip)
    ensures Feed(Live(s), [skipLine, okLine]).stats.current == ""
  {
    var mid := Match(Live(s), skipLine);
    assert mid.Live? && mid.stats.current == s.current && mid.stats.profile == s.profile;
    assert Lookup(mid.stats.results, s.current, s.profile) == Some(Skip);
    var last := Match(mid, okLine);
    assert Feed(mid, [okLine]) == Feed(last, []) by {
      assert [okLine][0] == okLine && [okLine][1..] == [];
    }
    assert Feed(Live(s), [skipLine, okLine]) == Feed(mid, [okLine]) by {
      assert [skipLine, okLine][0] == skipLine && [skipLine, okLine][1..] == [okLine];
    }
  }

  /** Every test with a recorded verdict has at least one. */
  ghost predicate NoEmptyTest(s: Stats) {
    forall t | t in s.results :: s.results[t] != map[]
  }

  /** Reading a line keeps every recorded test non-empty: verdicts are only ever added. */
  lemma MatchKeepsNoEmptyTest(s: Stats, line: Line)
    requires NoEmptyTest(s)
    ensures Match(Live(s), line).Live? ==> NoEmptyTest(Match(Live(s), line).stats)
  {
  }

  /** Over a whole log, recorded tests stay non-empty. */
  lemma {:induction false} FeedKeepsNoEmptyTest(run: Run, lines: seq<Line>)
    requires run.Live? ==> NoEmptyTest(run.stats)
    ensures Feed(run, lines).Live? ==> NoEmptyTest(Feed(run, lines).stats)
    decreases |lines|
  {
    if lines != [] {
      if run.Live? {
        MatchKeepsNoEmptyTest(run.stats, lines[0]);
      }
      FeedKeepsNoEmptyTest(Match(run, lines[0]), lines[1..]);
    }
  }
}

=== FILE: test_summary.dfy ===
/**
 The classifier's summary: each recorded test is failed, skipped on every
 profile, or passed; tests with an unexpected error on any of their
 recorded profiles are counted once more, separately; the CI verdict fails
 when anything but passes was seen.
 */
module TestSummary {

  import opened TestLog

  datatype Class = Passed | Failed | Skipped

  /** Reference classification of one test from its per-profile verdicts. */
  function Classify(verdicts: map<string, Verdict>): Class {
    if exists p | p in verdicts :: verdicts[p] == Fail then Failed
    else if forall p | p in verdicts :: verdicts[p] == Skip then Skipped
    else Passed
  }

  /** Some recorded profile of `test` printed an unexpected error. */
  predicate Flagged(s: Stats, test: string)
    requires test in s.results
  {
    exists p | p in s.results[test] :: (test, p) in s.unexpected
  }

  /** The recorded tests among `tests` that fall in class `c`. */
  function InClass(s: Stats, tests: set<string>, c: Class): set<string> {
    set t | t in tests && t in s.results && Classify(s.results[t]) == c
  }

  /** The recorded tests among `tests` that printed an unexpected error. */
  function FlaggedTests(s: Stats, tests: set<string>): set<string> {
    set t | t in tests && t in s.results && Flagged(s, t)
  }

  /** What `print_summary` ends with: the dead-test exit, or the four counts, the test total and the verdict. */
  datatype Summary = SummaryDied(output: string)
                   | Counts(passed: nat, skipped: nat, failed: nat, unexpectedTests: nat, numTests: nat, didFail: bool)

  /**
   The per-test inner loop: counts the profiles that passed, failed and
   were skipped, and those flagged with an unexpected error.
   */
  method CountProfiles(s: Stats, test: string) returns (passedP: nat, failedP: nat, skippedP: nat, unexpectedP: nat)
    requires test in s.results
    ensures failedP != 0 <==> exists p | p in s.results[test] :: s.results[test][p] == Fail
    ensures skippedP == |s.results[test]| <==> forall p | p in s.results[test] :: s.results[test][p] == Skip
    ensures unexpectedP != 0 <==> Flagged(s, test)
    ensures passedP + failedP + skippedP == |s.results[test]|
  {
    var verdicts := s.results[test];
    var todo := verdicts.Keys;
    ghost var done: set<string> := {};
    passedP, failedP, skippedP, unexpectedP := 0, 0, 0, 0;
    while todo != {}
      invariant todo + done == verdicts.Keys && todo !! done
      invariant passedP + failedP + skippedP == |done|
      invariant failedP != 0 <==> exists p | p in done :: verdicts[p] == Fail
      invariant skippedP <= |done|
      invariant skippedP == |done| <==> forall p | p in done :: verdicts[p] == Skip
      invariant unexpectedP != 0 <==> exists p | p in done :: (test, p) in s.unexpected
      decreases |todo|
    {
      var p :| p in todo;
      match verdicts[p] {
        case Pass => passedP := passedP + 1;
        case Fail => failedP := failedP + 1;
        case Skip => skippedP := skippedP + 1;
      }
      if (test, p) in s.unexpected {
        unexpectedP := unexpectedP + 1;
      }
      todo := todo - {p};
      done := done + {p};
    }
    assert done == verdicts.Keys;
  }

  /**
   `print_summary`: stops as a dead test when one is still running;
   otherwise classifies every recorded test and sets the verdict.
   */
  method PrintSummary(s: Stats) returns (o: Summary)
    ensures s.current != "" ==> o == SummaryDied(s.output)
    ensures s.current == "" ==>
              && o.Counts?
              && o.passed == |InClass(s, s.results.Keys, Passed)|
              && o.failed == |InClass(s, s.results.Keys, Failed)|
              && o.skipped == |InClass(s, s.results.Keys, Skipped)|
              && o.unexpectedTests == |FlaggedTests(s, s.results.Keys)|
              && o.numTests == |s.results|
              && o.passed + o.failed + o.skipped == o.numTests
              && (o.didFail <==> exists t | t in s.results :: Classify(s.results[t]) != Passed || Flagged(s, t))
  {
    if s.current != "" {
      return SummaryDied(s.output);
    }
    var passed, skipped, failed, unexpectedTests := 0, 0, 0, 0;
    var todo := s.results.Keys;
    ghost var done: set<string> := {};
    while todo != {}
      invariant SummaryInvariant(s, todo, done, passed, failed, skipped, unexpectedTests)
      decreases |todo|
    {
      var test :| test in todo;
      passed, failed, skipped, unexpectedTests := SummaryStep(s, todo, done, test, passed, failed, skipped, unexpectedTests);
      todo := todo - {test};
      done := done + {test};
    }
    assert done == s.results.Keys;
    var didFail := skipped != 0 || failed != 0 || unexpectedTests != 0;
    o := Counts(passed, skipped, failed, unexpectedTests, |s.results|, didFail);
    VerdictMeaning(s, o);
  }

  /** The summary loop's invariant: each count is the size of its class among the tests visited so far. */
  ghost predicate SummaryInvariant(s: Stats, todo: set<string>, done: set<string>,
                                   passed: nat, failed: nat, skipped: nat, unexpectedTests: nat) {
    && todo + done == s.results.Keys && todo !! done
    && passed == |InClass(s, done, Passed)|
    && failed == |InClass(s, done, Failed)|
    && skipped == |InClass(s, done, Skipped)|
    && unexpectedTests == |FlaggedTests(s, done)|
  }

  /** One test of the summary loop: count its profiles, then bump its class and, if flagged, the flagged count. */
  method SummaryStep(s: Stats, todo: set<string>, ghost done: set<string>, test: string,
                     passed: nat, failed: nat, skipped: nat, unexpectedTests: nat)
    returns (passed': nat, failed': nat, skipped': nat, unexpectedTests': nat)
    requires SummaryInvariant(s, todo, done, passed, failed, skipped, unexpectedTests) && test in todo
    ensures SummaryInvariant(s, todo - {test}, done + {test}, passed', failed', skipped', unexpectedTests')
  {
    var passedP, failedP, skippedP, unexpectedP := CountProfiles(s, test);
    ClassStep(s, done, test, Passed);
    ClassStep(s, done, test, Failed);
    ClassStep(s, done, test, Skipped);
    FlaggedStep(s, done, test);
    passed', failed', skipped', unexpectedTests' := passed, failed, skipped, unexpectedTests;
    if failedP != 0 {
      failed' := failed + 1;
    } else if skippedP == |s.results[test]| {
      skipped' := skipped + 1;
    } else {
      passed' := passed + 1;
    }
    if unexpectedP != 0 {
      unexpectedTests' := unexpectedTests + 1;
    }
  }

  /** Adding one test to the visited ones adds one to the size of its own class and nothing to the others. */
  lemma ClassStep(s: Stats, done: set<string>, test: string, c: Class)
    requires test in s.results && test !in done
    ensures |InClass(s, done + {test}, c)| == |InClass(s, done, c)| + (if Classify(s.results[test]) == c then 1 else 0)
  {
    if Classify(s.results[test]) == c {
      assert InClass(s, done + {test}, c) == InClass(s, done, c) + {test};
    } else {
      assert InClass(s, done + {test}, c) == InClass(s, done, c);
    }
  }

  /**
   Adding one test to the visited ones adds one to the unexpected-error count
   exactly when some profile of it is flagged, however many are: a test counts
   at most once.
   */
  lemma FlaggedStep(s: Stats, done: set<string>, test: string)
    requires test in s.results && test !in done
    ensures |FlaggedTests(s, done + {test})| == |FlaggedTests(s, done)| + (if Flagged(s, test) then 1 else 0)
  {
    if Flagged(s, test) {
      assert FlaggedTests(s, done + {test}) == FlaggedTests(s, done) + {test};
    } else {
      assert FlaggedTests(s, done + {test}) == FlaggedTests(s, done);
    }
  }

  /** Every recorded test falls in exactly one class, so the three counts add up to the number of tests. */
  lemma {:induction false} ClassesPartition(s: Stats, tests: set<string>)
    requires tests <= s.results.Keys
    ensures |InClass(s, tests, Passed)| + |InClass(s, tests, Failed)| + |InClass(s, tests, Skipped)| == |tests|
    decreases |tests|
  {
    if tests != {} {
      var t :| t in tests;
      ClassesPartition(s, tests - {t});
      ClassStep(s, tests - {t}, t, Passed);
      ClassStep(s, tests - {t}, t, Failed);
      ClassStep(s, tests - {t}, t, Skipped);
      assert tests - {t} + {t} == tests;
    }
  }

  /**
   The verdict: the summary fails exactly when some recorded test did not
   pass on any profile-independent reading — it failed somewhere, was
   skipped everywhere, or printed an unexpected error.
   */
  lemma {:induction false} VerdictMeaning(s: Stats, o: Summary)
    requires s.current == ""
    requires o.Counts? && o.didFail == (o.skipped != 0 || o.failed != 0 || o.unexpectedTests != 0)
    requires o.passed == |InClass(s, s.results.Keys, Passed)|
    requires o.failed == |InClass(s, s.results.Keys, Failed)|
    requires o.skipped == |InClass(s, s.results.Keys, Skipped)|
    requires o.unexpectedTests == |FlaggedTests(s, s.results.Keys)|
    ensures o.didFail <==> exists t | t in s.results :: Classify(s.results[t]) != Passed || Flagged(s, t)
    ensures o.passed + o.failed + o.skipped == |s.results|
  {
    ClassesPartition(s, s.results.Keys);
    if exists t | t in s.results :: Classify(s.results[t]) != Passed || Flagged(s, t) {
      var t :| t in s.results && (Classify(s.results[t]) != Passed || Flagged(s, t));
      if Flagged(s, t) {
        assert t in FlaggedTests(s, s.results.Keys);
      } else if Classify(s.results[t]) == Failed {
        assert t in InClass(s, s.results.Keys, Failed);
      } else {
        assert t in InClass(s, s.results.Keys, Skipped);
      }
    }
  }

  /**
   `main`'s exit status: 1 when the run stopped on a dead test or the
   summary verdict failed, 0 otherwise; an aborted run exits with the
   interpreter's error status, also 1.
   */
  method ExitStatus(lines: seq<Line>) returns (code: int)
    ensures code == 0 <==>
              var run := Feed(Live(Initial), lines);
              && run.Live? && run.stats.current == ""
              && forall t | t in run.stats.results :: Classify(run.stats.results[t]) == Passed && !Flagged(run.stats, t)
    ensures code == 0 || code == 1
  {
    var run := Feed(Live(Initial), lines);
    if !run.Live? {
      return 1;
    }
    var summary := PrintSummary(run.stats);
    if summary.SummaryDied? {
      return 1;
    }
    code := if summary.didFail then 1 else 0;
  }

  /**
   A test recorded only as skipped on every profile is classed as skipped,
   so the summary's skipped count is non-zero and its verdict fails CI.
   */
  lemma SkippedEverywhereFails(s: Stats, test: string, o: Summary)
    requires test in s.results && s.results[test] != map[]
    requires forall p | p in s.results[test] :: s.results[test][p] == Skip
    requires o.Counts? && o.didFail == (o.skipped != 0 || o.failed != 0 || o.unexpectedTests != 0)
    requires o.skipped == |InClass(s, s.results.Keys, Skipped)|
    ensures Classify(s.results[test]) == Skipped
    ensures o.skipped > 0 && o.didFail
  {
    var p :| p in s.results[test];
    assert s.results[test][p] != Fail;
    assert test in InClass(s, s.results.Keys, Skipped);
  }
}

=== FILE: wrappers.dfy ===
/** The optional-value datatype shared by the modules of this model. */
module Wrappers {

  datatype Option<+T> = None | Some(value: T)
}
